=== FILE: README.md ===
# Itinerary enrichment pipeline — a Dafny model

This project models the deterministic core of the itinerary agent. That agent
turns a free-text travel itinerary into an enriched Markdown report, in five
stages that share one session state, a dictionary from string keys to JSON
values:

1. **Parsing** (`parser_agent`). A language-model agent writes its reply
   straight to `parsed_days`. That reply is a parameter here: whatever the
   session holds under `parsed_days` when the next stage starts.
2. **Location search** (`LocationSearchAgent`). Each distinct overnight location
   of the parsed days is looked up. Each answer is stored under
   `coords_<location>`.
3. **Activity search** (`ActivitySearchAgent`). For each day whose overnight
   location has coordinates, the coordinates are extracted from any of the
   stored encodings, including free text. Tours are searched within 5 km, at
   most 20 of them. The answer is stored under `activities_day_<n>`.
4. **Matching** (`MatcherAgent`). For each day, the available tours are
   summarised, a language model chooses one, and its choice is validated. The
   results are aggregated into `enriched_itinerary`, sorted by day, with
   warnings.
5. **Formatting** (`FormatterAgent`). The enriched itinerary is rendered to
   Markdown in `formatted_itinerary`, with a total cost and the warnings.

Both tool layers are modelled as well: the Amadeus wrappers of the itinerary
agent and of the travel agent, the `match_activity` tool, and the standalone
`parse_itinerary` tool. That tool strips Markdown code fences from a language
model's reply and decodes it into a `{status, days}` object or an error
object; no stage calls it.

Every input that the deterministic code does not decide is a parameter:

- a language model's reply, an Amadeus answer, or an exception raised
  instead;
- `json.loads`;
- Python's `str()` of floats, lists and dicts;
- `float()` of a string;
- the `:.2f` format.

Replies to concurrent tasks are indexed by the position of the task.

Modules, one per file:

- `wrappers.dfy` `Wrappers`: Option, Result, and Outcome, which is a value
  or a raised exception.
- `json.dfy` `JsonValue`: JSON values, Python truthiness, `dict.get`, and
  `str()` of integers.
- `text.dfy` `Text`: `strip`, code-fence removal, `re.sub(r'<[^>]+>', '', …)`,
  slicing and `upper`.
- `client.dfy` `Client`: what the Amadeus client answers.
- `amadeus_itinerary.dfy` `ItineraryAmadeus`, `amadeus_travel.dfy`
  `TravelAmadeus`: the two tool layers. Both send the queries that
  `ItineraryAmadeus.LocationQuery` and `ActivitiesQuery` build.
- `parser_tools.dfy` `ParserTools`, `matcher_tools.dfy` `MatcherTools`: the
  parsing and matching tools.
- `session.dfy` `SessionState`: the session, a class whose `state` map the
  stages update, and the shared `parsed_days` gate.
- `location_search.dfy` `LocationSearch`, `activity_search.dfy`
  `ActivitySearch`, `matcher.dfy` `Matcher`, `formatter.dfy` `Formatter`:
  the four stages. Each is a method that modifies the session, proved equal
  to a function of the old state.
- `pipeline.dfy` `Pipeline`: how the stages interact.

## Model

| member | source | states |
|---|---|---|
| JsonValue.GetOr | apps/api/src/agents/itinerary_agent/sub_agents/formatter.py:108-114 | `dict.get(k, default)` gives the stored value for a present key and the default otherwise |
| JsonValue.Truthy | apps/api/src/agents/itinerary_agent/sub_agents/activity_search.py:116-118 | definition, no contract: Python truthiness (None, False, 0, 0.0, empty text, list or dict are falsy) |
| JsonValue.Show | apps/api/src/agents/itinerary_agent/sub_agents/activity_search.py:168 | definition, no contract: what an f-string renders; text as is, None/True/False by name, ints in decimal, the rest by the `str()` parameter |
| JsonValue.Decode | apps/api/src/agents/itinerary_agent/sub_agents/matcher.py:94-106 | a state value that is not a string is used as it is; only a string goes through `json.loads` |
| JsonValue.NatToString | apps/api/src/agents/itinerary_agent/sub_agents/activity_search.py:168 | `str()` of a natural number is a non-empty string of decimal digits |
| JsonValue.NatToStringInjective | apps/api/src/agents/itinerary_agent/sub_agents/activity_search.py:168 | distinct natural numbers render differently |
| JsonValue.IntToStringInjective | apps/api/src/agents/itinerary_agent/sub_agents/matcher.py:140 | distinct integers render differently |
| JsonValue.SignPrefix | apps/api/src/agents/itinerary_agent/sub_agents/activity_search.py:168 | a rendered integer starts with `-` exactly when it is negative |
| Text.Lead | apps/api/src/agents/itinerary_agent/tools/parser_tools.py:86 | the first position from a start that holds no whitespace, or the end of the text |
| Text.LeadSkipsSpaces | apps/api/src/agents/itinerary_agent/tools/parser_tools.py:86 | every position skipped before it holds whitespace |
| Text.Trail | apps/api/src/agents/itinerary_agent/tools/parser_tools.py:86 | the end left after trailing whitespace is dropped, never below the start, with a non-space before it |
| Text.TrailDropsSpaces | apps/api/src/agents/itinerary_agent/tools/parser_tools.py:86 | every position dropped from the end holds whitespace |
| Text.Strip | apps/api/src/agents/itinerary_agent/tools/parser_tools.py:86 | `strip()` gives a slice of the input that neither starts nor ends with whitespace |
| Text.StripDropsOnlySpaces | apps/api/src/agents/itinerary_agent/tools/parser_tools.py:86 | everything before and after that slice is whitespace |
| Text.RemoveAll | apps/api/src/agents/itinerary_agent/tools/parser_tools.py:91-93 | definition, no contract: `replace(p, "")`, deleting non-overlapping occurrences from left to right; its properties are stated in Text.RemoveAllDeletes |
| Text.RemoveAllDeletes | apps/api/src/agents/itinerary_agent/tools/parser_tools.py:91-93 | `replace(p, "")` only deletes characters, and leaves a text without `p` unchanged |
| Text.RemoveFencesLeavesNone | apps/api/src/agents/itinerary_agent/tools/parser_tools.py:90-93 | after every triple backtick is removed, none is left, and a leading backtick was already leading |
| Text.Unfence | apps/api/src/agents/itinerary_agent/tools/parser_tools.py:90-93 | definition, no contract: a reply opening with "```json" loses every "```json" then every "```"; any other loses every "```"; then it is stripped; its properties are stated in Text.UnfenceClean |
| Text.UnfenceClean | apps/api/src/agents/itinerary_agent/tools/parser_tools.py:90-93 | once the fences are removed and the text stripped, no triple backtick is left |
| Text.StripFences | apps/api/src/agents/itinerary_agent/tools/parser_tools.py:86-93 | a reply that does not start with a fence is only stripped; one that does is left with no fence at all |
| Text.StripKeepsNoFence | apps/api/src/agents/itinerary_agent/sub_agents/matcher.py:339-342 | stripping a fence-free text cannot create a fence |
| Text.SliceKeepsNoFence | apps/api/src/agents/itinerary_agent/sub_agents/matcher.py:339-342 | every slice of a fence-free text is fence-free |
| Text.IndexOfClose | apps/api/src/agents/itinerary_agent/sub_agents/formatter.py:131 | the first `>` at or after a position, or the end of the text |
| Text.TagLength | apps/api/src/agents/itinerary_agent/sub_agents/formatter.py:131 | a match of `<[^>]+>` at the front is at least three characters, from `<` to `>` |
| Text.StripTags | apps/api/src/agents/itinerary_agent/sub_agents/formatter.py:131 | definition, no contract: `re.sub(r'<[^>]+>', '', s)`, one left-to-right pass; its properties are stated in Text.StripTagsKeeps and Text.StripTagsLeavesNoTag |
| Text.StripTagsKeeps | apps/api/src/agents/itinerary_agent/sub_agents/formatter.py:131 | removing tags only removes characters, and a text not starting with `<` keeps its first character |
| Text.StripTagsLeavesNoTag | apps/api/src/agents/itinerary_agent/sub_agents/formatter.py:131 | after tag removal, no `<` is followed later by a `>` with something between them |
| Text.Take | apps/api/src/agents/itinerary_agent/sub_agents/matcher.py:281 | `s[:n]` is a prefix of `s`: the whole text when it has at most `n` characters, and otherwise exactly its first `n` |
| Text.Upper | apps/api/src/agents/itinerary_agent/sub_agents/formatter.py:159 | `upper()` keeps the length and leaves no lower-case ASCII letter |
| SessionState.Session.constructor | apps/api/src/agents/itinerary_agent/sub_agents/location_search.py:89 | a session starts with the given state |
| SessionState.Session.Lookup | apps/api/src/agents/itinerary_agent/sub_agents/location_search.py:89 | `session.state.get(key)` is the stored value, or None when the key is absent |
| SessionState.DayList | apps/api/src/agents/itinerary_agent/sub_agents/location_search.py:105-112 | the days `for day in days` visits: a list's items, and none for a falsy `days` such as `{}` or `""` |
| SessionState.AcceptedDays | apps/api/src/agents/itinerary_agent/sub_agents/location_search.py:89-105 | the days are available exactly when `parsed_days` decodes to an object whose status is `success`; they are then all objects; with no `parsed_days`, none are available |
| SessionState.EmptyDaysAccepted | apps/api/src/agents/itinerary_agent/sub_agents/activity_search.py:99-107 | an accepted `parsed_days` whose `days` is `{}` or `""` passes the gate with no days, so the stage stops at `if not parsed_days` |
| ItineraryAmadeus.LocationQuery | apps/api/src/agents/itinerary_agent/tools/amadeus_tools.py:39-43 | a city search asks for the given name and country, and at most 5 results |
| ItineraryAmadeus.SearchLocation | apps/api/src/agents/itinerary_agent/tools/amadeus_tools.py:22-67 | `success` holds exactly when records came back; an API error carries its message and three suggestions; no records gives the not-found message; otherwise every record, its count, and the first record as the primary location |
| ItineraryAmadeus.ActivitiesQuery | apps/api/src/agents/itinerary_agent/tools/amadeus_tools.py:70-92 | the tour search asks for the given coordinates, radius and limit |
| ItineraryAmadeus.SearchActivities | apps/api/src/agents/itinerary_agent/tools/amadeus_tools.py:70-117 | `success` holds exactly when records came back; on failure there is no `activities` list; no records gives the message naming the radius; otherwise every record, its count and the search parameters |
| ItineraryAmadeus.DefaultsUsed | apps/api/src/agents/itinerary_agent/tools/amadeus_tools.py:73-74 | the default radius is 5 km and the default limit is 15 |
| TravelAmadeus.Suggestions | apps/api/src/agents/travel_agent/tools/amadeus_tools.py:54-74 | every failure carries exactly three suggestions |
| TravelAmadeus.SearchLocation | apps/api/src/agents/travel_agent/tools/amadeus_tools.py:23-81 | as in the itinerary tools, with suggestions on every failure |
| TravelAmadeus.SearchActivities | apps/api/src/agents/travel_agent/tools/amadeus_tools.py:84-152 | `success` holds exactly when records came back; failures carry the error or the not-found message and suggestions; otherwise every record |
| TravelAmadeus.AgreesWithItineraryTools | apps/api/src/agents/travel_agent/tools/amadeus_tools.py:76-81 | on records, both tool layers give the same location and activity answers |
| ParserTools.ErrorResult | apps/api/src/agents/itinerary_agent/tools/parser_tools.py:101-105 | an error result has status `error`, an empty `days` list and the message |
| ParserTools.Finish | apps/api/src/agents/itinerary_agent/tools/parser_tools.py:95-107 | a decoded object gains `status: success` only when it has none; without `days` it becomes the missing-days error; a decoded scalar leads to the crash message |
| ParserTools.ParseItinerary | apps/api/src/agents/itinerary_agent/tools/parser_tools.py:27-120 | every object result has `status` and `days`; a raised reply gives the parsing error; otherwise the fence-stripped reply is decoded and finished, and a decode failure gives the invalid-JSON error |
| MatcherTools.Truncate200 | apps/api/src/agents/itinerary_agent/tools/matcher_tools.py:67 | `[:200]` of a string or list is a prefix of it: the whole value when it is at most 200 long, and otherwise exactly its first 200 characters or items |
| MatcherTools.Summary | apps/api/src/agents/itinerary_agent/tools/matcher_tools.py:62-71 | each summary carries its tour's position and the name and description defaults; a text description is cut to exactly its first 200 characters, or kept whole when shorter |
| MatcherTools.Summaries | apps/api/src/agents/itinerary_agent/tools/matcher_tools.py:62-71 | one summary per tour, in order |
| MatcherTools.PickIndex | apps/api/src/agents/itinerary_agent/tools/matcher_tools.py:127-139 | a valid index picks that tour; None or an index at or past the end is out of range; a negative index counts from the end, as Python indexing does; one below `-n` raises |
| MatcherTools.Failed | apps/api/src/agents/itinerary_agent/tools/matcher_tools.py:119-137 | a failure has the given status, no matched tour and confidence `none` |
| MatcherTools.MatchActivity | apps/api/src/agents/itinerary_agent/tools/matcher_tools.py:27-161 | a success's matched tour is one of the given tours; any other result has no tour and confidence `none`; no tours gives the no-tours error; otherwise an oracle call that raised gives the "Error matching activity" result, an undecodable reply the "Failed to parse matcher response as JSON" error, a reply that decodes to a non-dict the `.get` error, and a dict reply exactly what `Select` gives |
| MatcherTools.Select | apps/api/src/agents/itinerary_agent/tools/matcher_tools.py:118-144 | a `no_match` answer is passed on; a missing or too-large index gives "Invalid tour index returned"; a usable index returns exactly that tour with status `success`; an index Python cannot use (below -n, a float, or a type `>=` rejects) gives status `error` with the exception's message |
| MatcherTools.NoFallbackOnBadJson | apps/api/src/agents/itinerary_agent/tools/matcher_tools.py:146-153 | a reply that does not decode gives an error, never a tour |
| LocationSearch.Overnight | apps/api/src/agents/itinerary_agent/sub_agents/location_search.py:108-112 | a day contributes its `overnight` exactly when that value is truthy |
| LocationSearch.Overnights | apps/api/src/agents/itinerary_agent/sub_agents/location_search.py:108-112 | a name is collected exactly when some day has it as its truthy overnight |
| LocationSearch.Destinations | apps/api/src/agents/itinerary_agent/sub_agents/location_search.py:89-112 | no destinations when the gate rejects `parsed_days`; otherwise exactly the truthy overnight names of the accepted days |
| LocationSearch.CoordsKey | apps/api/src/agents/itinerary_agent/sub_agents/location_search.py:144 | definition, no contract: `f'coords_{location}'`; its properties are stated in LocationSearch.CoordsKeyInjective |
| LocationSearch.CoordsKeyInjective | apps/api/src/agents/itinerary_agent/sub_agents/location_search.py:144 | distinct locations are stored under distinct keys |
| LocationSearch.Record | apps/api/src/agents/itinerary_agent/sub_agents/location_search.py:137-146 | definition, no contract: the state after the first n lookups are written, a returned one storing its tool result under its `coords_` key; its properties are stated in LocationSearch.RecordKeys and LocationSearch.RecordStores |
| LocationSearch.Written | apps/api/src/agents/itinerary_agent/sub_agents/location_search.py:137-146 | a `coords_` key is written exactly when some lookup for that location returned |
| LocationSearch.RecordKeys | apps/api/src/agents/itinerary_agent/sub_agents/location_search.py:137-146 | exactly the keys of lookups that returned are added, and every other key keeps its value |
| LocationSearch.RecordStores | apps/api/src/agents/itinerary_agent/sub_agents/location_search.py:137-146 | with distinct locations, each returned lookup's tool result, a not-found one included, is stored under its own key |
| LocationSearch.CollectOvernights | apps/api/src/agents/itinerary_agent/sub_agents/location_search.py:108-112 | the loop collects exactly the set of truthy overnight names |
| LocationSearch.ListOf | apps/api/src/agents/itinerary_agent/sub_agents/location_search.py:108-112 | `list()` of a set holds each member exactly once |
| LocationSearch.UniqueOvernights | apps/api/src/agents/itinerary_agent/sub_agents/location_search.py:108-112 | the list holds each overnight name exactly once |
| LocationSearch.Queries | apps/api/src/agents/itinerary_agent/sub_agents/location_search.py:121-134 | one city search per location, with no country code |
| LocationSearch.StoreResults | apps/api/src/agents/itinerary_agent/sub_agents/location_search.py:137-146 | the write loop leaves the state the lookups' fold describes |
| LocationSearch.SearchLocations | apps/api/src/agents/itinerary_agent/sub_agents/location_search.py:61-159 | one lookup per distinct destination; the new state is the fold of their results; with no destinations nothing changes |
| ActivitySearch.SeparatorRun | apps/api/src/agents/itinerary_agent/sub_agents/activity_search.py:204-205 | the `[:\s]+` run from a position stays within the text |
| ActivitySearch.SeparatorRunMaximal | apps/api/src/agents/itinerary_agent/sub_agents/activity_search.py:204-205 | the separator run is greedy: every character in it is `:` or whitespace, and it stops at the end of the text or at a character that is neither |
| ActivitySearch.Digits | apps/api/src/agents/itinerary_agent/sub_agents/activity_search.py:204-205 | the `[0-9]*` run from a position stays within the text and holds digits only |
| ActivitySearch.DigitsRun | apps/api/src/agents/itinerary_agent/sub_agents/activity_search.py:204-205 | the digit run is greedy: it is the text's own characters from the position, and it stops at the end of the text or at a non-digit |
| ActivitySearch.NumberAt | apps/api/src/agents/itinerary_agent/sub_agents/activity_search.py:204-205 | a match of `word[:\s]+(-?[0-9]+\.?[0-9]*)` at a position, ignoring case, captures a number with at least one whole digit |
| ActivitySearch.MatchPosition | apps/api/src/agents/itinerary_agent/sub_agents/activity_search.py:204-205 | the first position where the pattern matches, with no match before it, or past the end when there is none |
| ActivitySearch.Search | apps/api/src/agents/itinerary_agent/sub_agents/activity_search.py:204-205 | `re.search` returns a capture only when the pattern matches at some position, and none only when it matches at no position |
| ActivitySearch.SearchLeftmost | apps/api/src/agents/itinerary_agent/sub_agents/activity_search.py:204-205 | the match found is the leftmost one |
| ActivitySearch.FractionValue | apps/api/src/agents/itinerary_agent/sub_agents/activity_search.py:207-208 | the fraction digits are worth between 0 and 1 |
| ActivitySearch.Value | apps/api/src/agents/itinerary_agent/sub_agents/activity_search.py:207-208 | a capture with a minus sign is at most zero, and one without is at least zero |
| ActivitySearch.TextCoordinates | apps/api/src/agents/itinerary_agent/sub_agents/activity_search.py:199-210 | coordinates from text exactly when both words match; otherwise none |
| ActivitySearch.FromDict | apps/api/src/agents/itinerary_agent/sub_agents/activity_search.py:213-231 | `primary_location` wins over `coordinate_search_result`, which wins over direct `latitude`/`longitude`; otherwise none |
| ActivitySearch.ExtractCoordinates | apps/api/src/agents/itinerary_agent/sub_agents/activity_search.py:185-233 | a decodable string is read as its decoded value, an undecodable one by the text search; a non-dict gives none |
| ActivitySearch.EncodingsAgree | apps/api/src/agents/itinerary_agent/sub_agents/activity_search.py:213-231 | the three dictionary shapes yield the same coordinates |
| ActivitySearch.LookupResultCoordinates | apps/api/src/agents/itinerary_agent/sub_agents/activity_search.py:213-231 | what the location stage stores for a found city gives back the city's coordinates |
| ActivitySearch.CoordsEntry | apps/api/src/agents/itinerary_agent/sub_agents/activity_search.py:120-121 | definition, no contract: `state.get(f'coords_{location}')` for the day's overnight; its properties are stated in ActivitySearch.TaskFor |
| ActivitySearch.TaskFor | apps/api/src/agents/itinerary_agent/sub_agents/activity_search.py:112-136 | a day becomes a search exactly when its number, its overnight, its stored coordinates entry and both extracted coordinates are truthy (a coordinate of 0 skips the day); the search carries the day number and the extracted coordinates |
| ActivitySearch.SearchPlan | apps/api/src/agents/itinerary_agent/sub_agents/activity_search.py:112-136 | at most one search per day |
| ActivitySearch.PlanOnlyUsable | apps/api/src/agents/itinerary_agent/sub_agents/activity_search.py:112-136 | every planned search comes from a day that was usable |
| ActivitySearch.PlanStep | apps/api/src/agents/itinerary_agent/sub_agents/activity_search.py:112-136 | one more day extends the plan by that day's search exactly when it gets one |
| ActivitySearch.PlanDay | apps/api/src/agents/itinerary_agent/sub_agents/activity_search.py:112-136 | one pass of the loop turns the plan for the days before into the plan including this day |
| ActivitySearch.PlanSearches | apps/api/src/agents/itinerary_agent/sub_agents/activity_search.py:112-136 | the loop builds exactly the plan |
| ActivitySearch.Queries | apps/api/src/agents/itinerary_agent/sub_agents/activity_search.py:141-158 | every search uses a radius of 5 km and at most 20 results, at the day's coordinates |
| ActivitySearch.DayKey | apps/api/src/agents/itinerary_agent/sub_agents/activity_search.py:168 | definition, no contract: `f'activities_day_{day_num}'`; its properties are stated in ActivitySearch.DayKeyInjective |
| ActivitySearch.DayKeyInjective | apps/api/src/agents/itinerary_agent/sub_agents/activity_search.py:168 | distinct day numbers are stored under distinct keys |
| ActivitySearch.Record | apps/api/src/agents/itinerary_agent/sub_agents/activity_search.py:162-170 | definition, no contract: the state after the first n searches are written, a returned one storing its tool result under its day key; its properties are stated in ActivitySearch.RecordKeys and ActivitySearch.RecordLastWins |
| ActivitySearch.Written | apps/api/src/agents/itinerary_agent/sub_agents/activity_search.py:162-170 | a day key is written exactly when some search for that day returned |
| ActivitySearch.RecordKeys | apps/api/src/agents/itinerary_agent/sub_agents/activity_search.py:162-170 | exactly the day keys of searches that returned are added; every other key keeps its value |
| ActivitySearch.RecordLastWins | apps/api/src/agents/itinerary_agent/sub_agents/activity_search.py:162-170 | a day key holds the last returned search for that key |
| ActivitySearch.StoreResults | apps/api/src/agents/itinerary_agent/sub_agents/activity_search.py:162-170 | the write loop leaves the state the searches' fold describes |
| ActivitySearch.Plan | apps/api/src/agents/itinerary_agent/sub_agents/activity_search.py:87-136 | no searches when the gate rejects `parsed_days`; otherwise the plan of the accepted days |
| ActivitySearch.SearchActivities | apps/api/src/agents/itinerary_agent/sub_agents/activity_search.py:58-181 | the searches issued are the plan's queries; the new state is the fold of their results; with no plan nothing changes |
| Matcher.TaskFor | apps/api/src/agents/itinerary_agent/sub_agents/matcher.py:130-173 | a day without a number is skipped; no stored activities gives a task with no tours; an undecodable entry is skipped; a task carries the day's number, overnight and requested activity |
| Matcher.Tasks | apps/api/src/agents/itinerary_agent/sub_agents/matcher.py:130-173 | at most one task per day, and every task has a non-zero day number |
| Matcher.TasksStep | apps/api/src/agents/itinerary_agent/sub_agents/matcher.py:130-173 | one more day extends the task list by that day's task exactly when it gets one |
| Matcher.BuildDay | apps/api/src/agents/itinerary_agent/sub_agents/matcher.py:130-173 | one pass of the loop turns the tasks for the days before into the tasks including this day |
| Matcher.BuildTasks | apps/api/src/agents/itinerary_agent/sub_agents/matcher.py:130-173 | the loop builds exactly the task list |
| Matcher.SummaryOf | apps/api/src/agents/itinerary_agent/sub_agents/matcher.py:275-290 | a summary carries its tour's position; a truthy text description has no HTML tag left and at most 200 characters |
| Matcher.SummaryCut | apps/api/src/agents/itinerary_agent/sub_agents/matcher.py:279-281 | a truthy description is exactly the first 200 characters of its tag-free text, or all of it when shorter |
| Matcher.NoTagPrefix | apps/api/src/agents/itinerary_agent/sub_agents/matcher.py:281 | truncating a tag-free text keeps it tag-free |
| Matcher.SummaryError | apps/api/src/agents/itinerary_agent/sub_agents/matcher.py:275-290 | definition, no contract: the exception one tour's summary raises: not a dict, a truthy description that is not text, or a truthy price that is not a dict; its properties are stated in Matcher.SummariesError |
| Matcher.SummariesError | apps/api/src/agents/itinerary_agent/sub_agents/matcher.py:275-290 | the exception raised is the first failing tour's |
| Matcher.SummariesErrorStep | apps/api/src/agents/itinerary_agent/sub_agents/matcher.py:274-290 | the first failure from a tour on is that tour's own, or else the first failure after it, as the loop meets them |
| Matcher.Summaries | apps/api/src/agents/itinerary_agent/sub_agents/matcher.py:275-290 | the loop summarises every tour, or raises the first failing tour's exception |
| Matcher.ClampIndex | apps/api/src/agents/itinerary_agent/sub_agents/matcher.py:359-361 | the index chosen is always in range; a valid integer index is kept; `True` picks 1 when there are at least two tours and `False` picks 0, as Python's `isinstance(True, int)` allows; an out-of-range integer or a value that is not a number becomes 0 |
| Matcher.MatchDay | apps/api/src/agents/itinerary_agent/sub_agents/matcher.py:245-404 | a matched tour is one of the day's tours; no tours gives a no-match naming the location, without consulting the model; the day raises exactly when a summary fails; an undecodable reply falls back to the first tour with `low` confidence; a raised reply gives a no-match with the error; a reply decoding to a dict selects the tour as `Choose` does, and one decoding to anything else gives a no-match naming the failed `.get` |
| Matcher.Choose | apps/api/src/agents/itinerary_agent/sub_agents/matcher.py:347-380 | a null or missing `selected_index` is a no-match with the model's reasoning, defaulting to `No suitable match`; otherwise the tour at the checked index, with confidence defaulting to `medium` and reasoning to the empty string |
| Matcher.NoToursNoOracle | apps/api/src/agents/itinerary_agent/sub_agents/matcher.py:262-270 | with no tours, the model's reply does not matter |
| Matcher.Entry | apps/api/src/agents/itinerary_agent/sub_agents/matcher.py:200-221 | a no-match day has no tour and confidence `none`; a match keeps its tour |
| Matcher.Entries | apps/api/src/agents/itinerary_agent/sub_agents/matcher.py:194-221 | at most one entry per result, since a raised result gives none |
| Matcher.Warning | apps/api/src/agents/itinerary_agent/sub_agents/matcher.py:194-211 | definition, no contract: a raised result warns "Matching failed: …", a no-match warns "No tours found for day … in …", a match warns nothing; its properties are stated in Matcher.Warnings and Matcher.EveryResultAccounted |
| Matcher.Warnings | apps/api/src/agents/itinerary_agent/sub_agents/matcher.py:194-211 | at most one warning per result |
| Matcher.EveryResultAccounted | apps/api/src/agents/itinerary_agent/sub_agents/matcher.py:194-221 | entries plus warnings count every result once, and no-matches twice |
| Matcher.Aggregate | apps/api/src/agents/itinerary_agent/sub_agents/matcher.py:191-221 | the loop builds exactly the entries and the warnings |
| Matcher.OnDay | apps/api/src/agents/itinerary_agent/sub_agents/matcher.py:226 | the entries of one day, in their original order |
| Matcher.OnDayAppend | apps/api/src/agents/itinerary_agent/sub_agents/matcher.py:226 | one day's entries of a concatenation are the concatenation of each part's |
| Matcher.Insert | apps/api/src/agents/itinerary_agent/sub_agents/matcher.py:226 | inserting adds exactly that entry |
| Matcher.SortByDay | apps/api/src/agents/itinerary_agent/sub_agents/matcher.py:226 | the result is a permutation of the entries |
| Matcher.InsertSorted | apps/api/src/agents/itinerary_agent/sub_agents/matcher.py:226 | inserting into a sorted list keeps it sorted |
| Matcher.InsertOnDay | apps/api/src/agents/itinerary_agent/sub_agents/matcher.py:226 | inserting after the entries of the same day keeps their order |
| Matcher.SortSorted | apps/api/src/agents/itinerary_agent/sub_agents/matcher.py:226 | the result is ordered by day |
| Matcher.SortStable | apps/api/src/agents/itinerary_agent/sub_agents/matcher.py:226 | entries of one day keep their order, as Python's stable `sorted` does |
| Matcher.Failed | apps/api/src/agents/itinerary_agent/sub_agents/matcher.py:102-125 | a stage error has status `error` and the message |
| Matcher.StringsJson | apps/api/src/agents/itinerary_agent/sub_agents/matcher.py:227 | the warnings as a list of strings, in order |
| Matcher.DaysJson | apps/api/src/agents/itinerary_agent/sub_agents/matcher.py:226 | the entries as a list of objects, in order |
| Matcher.Results | apps/api/src/agents/itinerary_agent/sub_agents/matcher.py:185-188 | one result per task, the task's own |
| Matcher.EntriesFromResults | apps/api/src/agents/itinerary_agent/sub_agents/matcher.py:194-221 | every entry comes from a task, with its day and a tour from that task |
| Matcher.Assemble | apps/api/src/agents/itinerary_agent/sub_agents/matcher.py:183-228 | definition, no contract: the results of all tasks, aggregated, with the days sorted by day and the warnings; its properties are stated in Matcher.AssembledItinerary |
| Matcher.AssembledItinerary | apps/api/src/agents/itinerary_agent/sub_agents/matcher.py:224-228 | the itinerary has status `success`; its days are sorted and a permutation of the entries; every matched tour belongs to a task of the same day |
| Matcher.Enriched | apps/api/src/agents/itinerary_agent/sub_agents/matcher.py:94-231 | the four error messages in the order the gates apply them; otherwise the assembled itinerary |
| Matcher.Match | apps/api/src/agents/itinerary_agent/sub_agents/matcher.py:65-243 | only `enriched_itinerary` changes, and it holds the enriched result of the old state |
| Formatter.ToFloat | apps/api/src/agents/itinerary_agent/sub_agents/formatter.py:138-144 | `float()` of an int is exact; None, lists and dicts do not convert |
| Formatter.DayCost | apps/api/src/agents/itinerary_agent/sub_agents/formatter.py:121-144 | a day adds to the cost exactly when it has a tour whose price amount is not `N/A` and converts |
| Formatter.Total | apps/api/src/agents/itinerary_agent/sub_agents/formatter.py:103-144 | definition, no contract: the running total of the counted prices; its properties are stated in Formatter.NothingCountedNoCost and Formatter.RenderStep |
| Formatter.Currency | apps/api/src/agents/itinerary_agent/sub_agents/formatter.py:103-144 | definition, no contract: the first counted currency, set while it is still None; its properties are stated in Formatter.FirstCurrencyWins |
| Formatter.NothingCountedNoCost | apps/api/src/agents/itinerary_agent/sub_agents/formatter.py:103-144 | with no priced day, the total is 0 and the currency None |
| Formatter.FirstCurrencyWins | apps/api/src/agents/itinerary_agent/sub_agents/formatter.py:141-142 | the currency is the first priced day's |
| Formatter.Items | apps/api/src/agents/itinerary_agent/sub_agents/formatter.py:175-199 | the pictures and warnings loops (and `len`, slicing) see a list's items, or a string's characters one by one |
| Formatter.PhotoBlock | apps/api/src/agents/itinerary_agent/sub_agents/formatter.py:176-181 | the count line with the number of pictures, then one line for each of the first three pictures in order, then the more-photos line with the remaining count exactly when there are more than three |
| Formatter.PhotoParts | apps/api/src/agents/itinerary_agent/sub_agents/formatter.py:175-181 | falsy pictures give no lines; truthy pictures (a list, or a string taken character by character) are non-empty and give the photo block over their items |
| Formatter.Description | apps/api/src/agents/itinerary_agent/sub_agents/formatter.py:128-131 | a truthy text description has its HTML tags removed |
| Formatter.TourParts | apps/api/src/agents/itinerary_agent/sub_agents/formatter.py:123-181 | a tour section opens with the tour's name, carries the tag-free description line and ends with the photo lines |
| Formatter.DayParts | apps/api/src/agents/itinerary_agent/sub_agents/formatter.py:107-188 | a day section opens with its heading and closes with the separator; a day without a tour gets the no-tour lines; a matched day has its tour section between the three opening lines and the separator |
| Formatter.WarningParts | apps/api/src/agents/itinerary_agent/sub_agents/formatter.py:195-199 | no warnings section exactly when the warnings are falsy; otherwise the heading, one bullet each and a blank line |
| Formatter.Sections | apps/api/src/agents/itinerary_agent/sub_agents/formatter.py:107-188 | definition, no contract: the day sections one after another; its properties are stated in Formatter.RenderDays |
| Formatter.CostLine | apps/api/src/agents/itinerary_agent/sub_agents/formatter.py:192-193 | definition, no contract: the total to two decimals, then the currency or `USD`; its properties are stated in Formatter.ClosingParts |
| Formatter.ClosingParts | apps/api/src/agents/itinerary_agent/sub_agents/formatter.py:191-202 | the summary opens with its heading and ends with the footer; the cost line appears exactly when the total is positive |
| Formatter.FramedText | apps/api/src/agents/itinerary_agent/sub_agents/formatter.py:100-205 | whatever lies between, the joined parts start with the title and end with the footer |
| Formatter.ReportParts | apps/api/src/agents/itinerary_agent/sub_agents/formatter.py:100-205 | definition, no contract: the title, the day sections and the closing parts, in order; its properties are stated in Formatter.Report |
| Formatter.Report | apps/api/src/agents/itinerary_agent/sub_agents/formatter.py:100-205 | the joined report starts with the title and ends with the footer |
| Formatter.Formatted | apps/api/src/agents/itinerary_agent/sub_agents/formatter.py:77-205 | an undecodable itinerary and a rejected one give their error messages; no itinerary gives the not-available message; an accepted itinerary gives the report of its days and warnings |
| Formatter.EmptyDaysReport | apps/api/src/agents/itinerary_agent/sub_agents/formatter.py:88-107 | an accepted itinerary whose `days` is `{}` or `""` is readable and gives the report with no day sections, zero total and no warnings |
| Formatter.RenderStep | apps/api/src/agents/itinerary_agent/sub_agents/formatter.py:103-188 | one more day appends its section, adds its counted price to the total and sets the currency only while it is None |
| Formatter.RenderDay | apps/api/src/agents/itinerary_agent/sub_agents/formatter.py:103-188 | one pass of the loop turns the parts, total and currency for the days before into those including this day |
| Formatter.RenderDays | apps/api/src/agents/itinerary_agent/sub_agents/formatter.py:103-188 | the loop builds the day sections, the total and the first currency |
| Formatter.Format | apps/api/src/agents/itinerary_agent/sub_agents/formatter.py:50-206 | only `formatted_itinerary` changes, and it holds the report of the old state |
| Pipeline.LocationWritesOnlyCoords | apps/api/src/agents/itinerary_agent/sub_agents/location_search.py:144-145 | the location stage keeps every key that does not start with `coords_`, with its value, and adds no such key |
| Pipeline.ActivityWritesOnlyDays | apps/api/src/agents/itinerary_agent/sub_agents/activity_search.py:168-169 | the activity stage keeps every key that does not start with `activities_day_`, with its value, and adds no such key |
| Pipeline.GateSurvivesSearches | apps/api/src/agents/itinerary_agent/agent.py:35-45 | both search stages leave `parsed_days` as it was, so the matcher sees the parser's days |

## Left out

- Language model calls are left out: prompts, the model itself and the parser's prompt text. Each model reply is a parameter: a string, or a raised exception.
- Concurrency (`asyncio.gather`, thread pools) is left out. The result of each concurrent task is a parameter indexed by the task's position. Results are consumed in task order, as `gather` returns them.
- The Amadeus HTTP client, `amadeus_client`, is not part of this model. Its answer is a parameter: records or an API error. Whether it forwards `max_results` is not modelled.
- Events yielded to the web UI, `print` logging and timing are left out, because they do not change the state.
- Python's `str()` of floats, lists and dicts, `float()` of a string, and `:.2f` are parameters. Floating-point arithmetic is modelled with exact reals.
- `ActivitySearch.Value`: reads the regular-expression capture as an exact decimal, where Python's `float()` rounds to binary.
- Whitespace covers the ASCII characters Python treats as whitespace: space, tab, line feed, carriage return, vertical tab, form feed and 0x1C-0x1F. Non-ASCII whitespace such as U+0085 and U+00A0 is not modelled. Case-insensitive matching and `upper()` cover ASCII letters only.
- The insertion order of Python dictionaries is not modelled; JSON objects are maps.
- Inputs that make the source raise outside a `try` are excluded by `Readable` and `DayReadable` preconditions rather than modelled as crashes. A summary failure in the matcher is not excluded: the summary loop (matcher.py:274-290) raises before the `try`, `gather(return_exceptions=True)` turns the exception into a result, and the model keeps it as a raised result.
- `SessionState.DaysReadable`: requires an accepted `days` to be a list of dicts, or an empty dict or string (every stage walks those as no days). The location stage alone also walks a non-empty string of days, and a non-dict day that has no `overnight`, because `'overnight' in day` is then a substring or membership test (location_search.py:108-112); the other stages raise on both, so they are excluded.
- `Formatter.Readable`: requires an accepted `days` to be a list of readable days, or an empty dict or string, which formatter.py:94-107 renders as a report with no day sections; any other `days` makes the source raise.
- `LocationSearch.NamedOrEmpty`: requires a truthy overnight to be a string. The source also accepts a truthy int, float or bool overnight, which goes through `set(...)`, `f'coords_{location}'` and a lookup; only a list or dict overnight raises. Locations are modelled as strings.
- `Matcher.DayReadable`: requires a truthy day number to be an int, so that the days sort by number. The source also sorts other day numbers without error, such as a single day, all strings, or ints mixed with floats. It also requires a decoded activities dict to hold a list under `activities`.
- `ActivitySearch.DayReadable`: requires the coordinates entry of a day that reaches extraction (truthy day number, overnight and entry) to have the shapes `_extract_coordinates` reads without checking; other shapes make the source raise.
- `Formatter.TourReadable`: requires `price` and `geoCode` to be dicts, a truthy description to be text, and truthy pictures to be a list or a string, the shapes the source renders without raising.
- `Formatter.DayReadable`: requires a matched day's `confidence` to be text, which the source upper-cases.
- `MatcherTools.MatchActivity`: requires every tour to be a dict whose `short_description` is a string or a list, where the source would raise inside the tool.
- `LocationSearch.SearchLocations`: issues its lookups in the order of the list it builds, not in Python's set iteration order. The stored results do not depend on that order, because the keys are distinct.
- `Formatter.Format`: requires truthy `warnings` to be a list or a string. A dict, whose keys Python would list one per line, is excluded.
- `json.dumps` of the matcher prompt is not modelled, because only the model sees it.
- The composed run of all five stages (`agent.py`) is not a single method here. Only the stages' non-interference is proved, in `Pipeline`.

=== FILE: activity_search.dfy ===
/** The activity search stage: for every day with a usable overnight location
    and coordinates, one activity search at 5 km, each result that came back
    stored under `activities_day_<N>`. */
module ActivitySearch {
  import opened Wrappers
  import opened JsonValue
  import opened Text
  import opened Client
  import opened SessionState
  import ParserTools
  import LocationSearch
  import ItineraryAmadeus

  const SearchRadiusKm: int := 5
  const SearchMaxResults: int := 20

  // ---------------------------------------------------------------------------
  // The plain-text fallback `latitude[:\s]+(-?[0-9]+\.?[0-9]*)` (ignoring case)

  /** A number as the capture group `-?[0-9]+\.?[0-9]*` reads it. */
  datatype Decimal = Decimal(negative: bool, whole: string, fraction: string)

  predicate Separator(c: char) {
    c == ':' || IsSpace(c)
  }

  /** The length of the run of separators `[:\s]` that starts at `from`. */
  function SeparatorRun(s: string, from: nat): (n: nat)
    requires from <= |s|
    ensures from + n <= |s|
    decreases |s| - from
  {
    if from == |s| || !Separator(s[from]) then 0 else 1 + SeparatorRun(s, from + 1)
  }

  /** The separator run is greedy: every character in it is a separator, and
      it stops at the end of the text or at a character that is not one. */
  lemma {:induction false} SeparatorRunMaximal(s: string, from: nat)
    requires from <= |s|
    ensures var n := SeparatorRun(s, from);
      (forall k :: from <= k < from + n ==> Separator(s[k]))
      && (from + n == |s| || !Separator(s[from + n]))
    decreases |s| - from
  {
    if from < |s| && Separator(s[from]) {
      SeparatorRunMaximal(s, from + 1);
    }
  }

  /** The run of decimal digits `[0-9]*` that starts at `from`. */
  function Digits(s: string, from: nat): (r: string)
    requires from <= |s|
    ensures from + |r| <= |s|
    ensures forall k :: 0 <= k < |r| ==> IsDigit(r[k])
    decreases |s| - from
  {
    if from == |s| || !IsDigit(s[from]) then [] else [s[from]] + Digits(s, from + 1)
  }

  /** The digit run is greedy: it is the text's own characters from `from`,
      and it stops at the end of the text or at a character that is not a
      digit. */
  lemma {:induction false} DigitsRun(s: string, from: nat)
    requires from <= |s|
    ensures var r := Digits(s, from);
      r == s[from..from + |r|] && (from + |r| == |s| || !IsDigit(s[from + |r|]))
    decreases |s| - from
  {
    if from < |s| && IsDigit(s[from]) {
      DigitsRun(s, from + 1);
      var rest := Digits(s, from + 1);
      assert s[from..from + 1 + |rest|] == [s[from]] + s[from + 1..from + 1 + |rest|];
    }
  }

  /** `word` occurs at position `at`, ignoring the case of ASCII letters. */
  predicate WordAt(s: string, at: nat, word: string)
    decreases |word|
  {
    at + |word| <= |s| && (word == [] || (LowerChar(s[at]) == word[0] && WordAt(s, at + 1, word[1..])))
  }

  /** The capture group when the pattern for `word` matches starting at `at`. */
  function NumberAt(s: string, at: nat, word: string): (r: Option<Decimal>)
    requires at <= |s|
    ensures r.Some? ==> WordAt(s, at, word) && r.value.whole != [] && forall k :: 0 <= k < |r.value.whole| ==> IsDigit(r.value.whole[k])
    ensures r.Some? ==> forall k :: 0 <= k < |r.value.fraction| ==> IsDigit(r.value.fraction[k])
  {
    if !WordAt(s, at, word) then None
    else
      var afterWord := at + |word|;
      var seps := SeparatorRun(s, afterWord);
      if seps == 0 then None
      else
        var start := afterWord + seps;
        var negative := start < |s| && s[start] == '-';
        var digitsFrom := if negative then start + 1 else start;
        var whole := Digits(s, digitsFrom);
        if whole == [] then None
        else
          var end := digitsFrom + |whole|;
          var fraction := if end < |s| && s[end] == '.' then Digits(s, end + 1) else [];
          Some(Decimal(negative, whole, fraction))
  }

  /** Where `re.search` finds its match: the first position at or after
      `from` where the pattern matches, or `|s| + 1` when there is none. */
  function MatchPosition(s: string, word: string, from: nat): (k: nat)
    requires from <= |s|
    ensures from <= k <= |s| + 1
    ensures k <= |s| ==> NumberAt(s, k, word).Some?
    ensures forall q :: from <= q < k && q <= |s| ==> NumberAt(s, q, word).None?
    decreases |s| - from
  {
    if NumberAt(s, from, word).Some? then from
    else if from == |s| then |s| + 1
    else MatchPosition(s, word, from + 1)
  }

  /** `re.search`: the capture of the leftmost match at or after `from`. */
  function Search(s: string, word: string, from: nat): (r: Option<Decimal>)
    requires from <= |s|
    ensures r.Some? ==> exists at :: from <= at <= |s| && NumberAt(s, at, word) == r
    ensures r.None? ==> forall at :: from <= at <= |s| ==> NumberAt(s, at, word).None?
  {
    var k := MatchPosition(s, word, from);
    if k <= |s| then NumberAt(s, k, word) else None
  }

  /** The leftmost match wins: nothing matches before it. */
  lemma SearchLeftmost(s: string, word: string, from: nat, at: nat)
    requires from <= at <= |s| && NumberAt(s, at, word).Some?
    requires forall q :: from <= q < at ==> NumberAt(s, q, word).None?
    ensures Search(s, word, from) == NumberAt(s, at, word)
  {
    var k := MatchPosition(s, word, from);
    assert k == at;
  }

  function DigitValue(c: char): nat
    requires IsDigit(c)
  {
    c as nat - '0' as nat
  }

  function WholeValue(ds: string): nat
    requires forall k :: 0 <= k < |ds| ==> IsDigit(ds[k])
  {
    if ds == [] then 0 else 10 * WholeValue(ds[..|ds| - 1]) + DigitValue(ds[|ds| - 1])
  }

  function FractionValue(ds: string): (r: real)
    requires forall k :: 0 <= k < |ds| ==> IsDigit(ds[k])
    ensures 0.0 <= r <= 1.0
  {
    if ds == [] then 0.0 else (DigitValue(ds[0]) as real + FractionValue(ds[1..])) / 10.0
  }

  /** `float(group)`, as an exact decimal. */
  function Value(d: Decimal): (r: real)
    requires forall k :: 0 <= k < |d.whole| ==> IsDigit(d.whole[k])
    requires forall k :: 0 <= k < |d.fraction| ==> IsDigit(d.fraction[k])
    ensures d.negative ==> r <= 0.0
    ensures !d.negative ==> r >= 0.0
  {
    var magnitude := WholeValue(d.whole) as real + FractionValue(d.fraction);
    if d.negative then -magnitude else magnitude
  }

  /** The fallback for text that is not JSON: a pair only when both patterns match. */
  function TextCoordinates(s: string): (r: (Json, Json))
    ensures Search(s, "latitude", 0).Some? && Search(s, "longitude", 0).Some? ==>
      r == (JReal(Value(Search(s, "latitude", 0).value)), JReal(Value(Search(s, "longitude", 0).value)))
    ensures Search(s, "latitude", 0).None? || Search(s, "longitude", 0).None? ==> r == (JNull, JNull)
  {
    var latitude := Search(s, "latitude", 0);
    var longitude := Search(s, "longitude", 0);
    if latitude.Some? && longitude.Some? then (JReal(Value(latitude.value)), JReal(Value(longitude.value)))
    else (JNull, JNull)
  }

  // ---------------------------------------------------------------------------
  // `_extract_coordinates`

  /** The shapes the dict branch reads without checking: `primary_location`
      and `coordinates` are dicts, and `coordinate_search_result` supports `in`
      and, when it holds "coordinates", is a dict. */
  predicate DictReadable(v: Json) {
    v.JObj? ==>
      var m := v.fields;
      ("primary_location" in m ==> m["primary_location"].JObj?)
      && ("primary_location" !in m && "coordinate_search_result" in m ==>
            var inner := m["coordinate_search_result"];
            ParserTools.Membership(inner, "coordinates") == Success(false)
            || (inner.JObj? && "coordinates" in inner.fields && inner.fields["coordinates"].JObj?))
  }

  predicate CoordinatesReadable(v: Json, parse: Parser) {
    if v.JStr? then parse(v.s).Success? ==> DictReadable(parse(v.s).value)
    else DictReadable(v)
  }

  /** The dict branch: the first recognised shape wins. */
  function FromDict(v: Json): (r: (Json, Json))
    requires DictReadable(v)
    ensures !v.JObj? ==> r == (JNull, JNull)
    // shape 1 is checked first
    ensures v.JObj? && "primary_location" in v.fields ==>
      r == (Get(v.fields["primary_location"].fields, "latitude"), Get(v.fields["primary_location"].fields, "longitude"))
    // shape 2 only without shape 1; no "coordinates" inside gives nothing
    ensures v.JObj? && "primary_location" !in v.fields && "coordinate_search_result" in v.fields ==>
      var inner := v.fields["coordinate_search_result"];
      if inner.JObj? && "coordinates" in inner.fields then
        r == (Get(inner.fields["coordinates"].fields, "latitude"), Get(inner.fields["coordinates"].fields, "longitude"))
      else r == (JNull, JNull)
    // shape 3 only without the other two
    ensures v.JObj? && "primary_location" !in v.fields && "coordinate_search_result" !in v.fields ==>
      r == if "latitude" in v.fields && "longitude" in v.fields
           then (v.fields["latitude"], v.fields["longitude"]) else (JNull, JNull)
  {
    if !v.JObj? then (JNull, JNull)
    else
      var m := v.fields;
      if "primary_location" in m then
        var place := m["primary_location"].fields;
        (Get(place, "latitude"), Get(place, "longitude"))
      else if "coordinate_search_result" in m then
        var inner := m["coordinate_search_result"];
        if ParserTools.Membership(inner, "coordinates") == Success(true) then
          var coordinates := inner.fields["coordinates"].fields;
          (Get(coordinates, "latitude"), Get(coordinates, "longitude"))
        else (JNull, JNull)
      else if "latitude" in m && "longitude" in m then
        (Get(m, "latitude"), Get(m, "longitude"))
      else (JNull, JNull)
  }

  /** `_extract_coordinates(coords_data)`: a string is decoded first, and text
      that is not JSON goes to the pattern fallback. */
  function ExtractCoordinates(v: Json, parse: Parser): (r: (Json, Json))
    requires CoordinatesReadable(v, parse)
    ensures v.JStr? && parse(v.s).Failure? ==> r == TextCoordinates(v.s)
    ensures v.JStr? && parse(v.s).Success? ==> r == FromDict(parse(v.s).value)
    ensures !v.JStr? ==> r == FromDict(v)
  {
    if v.JStr? then
      match parse(v.s)
      case Failure(_) => TextCoordinates(v.s)
      case Success(decoded) => FromDict(decoded)
    else FromDict(v)
  }

  function PrimaryLocationShape(latitude: Json, longitude: Json): Json {
    JObj(map["primary_location" := JObj(map["latitude" := latitude, "longitude" := longitude])])
  }

  function SearchResultShape(latitude: Json, longitude: Json): Json {
    JObj(map["coordinate_search_result" := JObj(map["coordinates" := JObj(map["latitude" := latitude, "longitude" := longitude])])])
  }

  function DirectShape(latitude: Json, longitude: Json): Json {
    JObj(map["latitude" := latitude, "longitude" := longitude])
  }

  /** The three dict encodings of one pair extract to that same pair. */
  lemma EncodingsAgree(latitude: Json, longitude: Json, parse: Parser)
    ensures ExtractCoordinates(PrimaryLocationShape(latitude, longitude), parse) == (latitude, longitude)
    ensures ExtractCoordinates(SearchResultShape(latitude, longitude), parse) == (latitude, longitude)
    ensures ExtractCoordinates(DirectShape(latitude, longitude), parse) == (latitude, longitude)
  {
    assert ParserTools.Membership(SearchResultShape(latitude, longitude).fields["coordinate_search_result"], "coordinates") == Success(true);
  }

  /** What the location stage stored is read back by shape 1: a found place
      gives the first record's coordinates, a failed lookup gives none. */
  lemma LookupResultCoordinates(name: string, reply: ClientReply, parse: Parser)
    requires HasRecords(reply) ==> reply.items[0].JObj?
    ensures CoordinatesReadable(ItineraryAmadeus.SearchLocation(name, reply), parse)
    ensures HasRecords(reply) ==>
      ExtractCoordinates(ItineraryAmadeus.SearchLocation(name, reply), parse)
        == (Get(reply.items[0].fields, "latitude"), Get(reply.items[0].fields, "longitude"))
    ensures !HasRecords(reply) ==>
      ExtractCoordinates(ItineraryAmadeus.SearchLocation(name, reply), parse) == (JNull, JNull)
  {
  }

  // ---------------------------------------------------------------------------
  // Planning the searches

  /** One planned search: the day number it is for and the coordinates. */
  datatype SearchTask = SearchTask(day: Json, latitude: Json, longitude: Json)

  /** The coordinates entry a day reads, where its overnight location is named. */
  function CoordsEntry(state: map<string, Json>, day: Json, pyStr: Json -> string): Json
    requires day.JObj?
  {
    Get(state, LocationSearch.CoordsKey(Show(Get(day.fields, "overnight"), pyStr)))
  }

  /** A day entry is a dict; its coordinates entry is read only when the day
      number, the overnight and the entry itself are truthy. */
  predicate DayReadable(state: map<string, Json>, day: Json, parse: Parser, pyStr: Json -> string) {
    day.JObj?
    && (Truthy(Get(day.fields, "day")) && Truthy(Get(day.fields, "overnight")) && Truthy(CoordsEntry(state, day, pyStr)) ==>
          CoordinatesReadable(CoordsEntry(state, day, pyStr), parse))
  }

  /** The task for one day, or None when it is skipped. */
  function TaskFor(state: map<string, Json>, day: Json, parse: Parser, pyStr: Json -> string): (r: Option<SearchTask>)
    requires DayReadable(state, day, parse, pyStr)
    // skipped: falsy day number or overnight, no coordinates entry, or a
    // falsy extracted coordinate (0 included)
    ensures r.Some? <==>
      Truthy(Get(day.fields, "day")) && Truthy(Get(day.fields, "overnight"))
      && Truthy(CoordsEntry(state, day, pyStr))
      && Truthy(ExtractCoordinates(CoordsEntry(state, day, pyStr), parse).0)
      && Truthy(ExtractCoordinates(CoordsEntry(state, day, pyStr), parse).1)
    ensures r.Some? ==>
      r.value.day == Get(day.fields, "day")
      && (r.value.latitude, r.value.longitude) == ExtractCoordinates(CoordsEntry(state, day, pyStr), parse)
  {
    var number := Get(day.fields, "day");
    var location := Get(day.fields, "overnight");
    if !Truthy(number) || !Truthy(location) then None
    else
      var entry := CoordsEntry(state, day, pyStr);
      if !Truthy(entry) then None
      else
        var (latitude, longitude) := ExtractCoordinates(entry, parse);
        if !Truthy(latitude) || !Truthy(longitude) then None
        else Some(SearchTask(number, latitude, longitude))
  }

  predicate DaysReadableFor(state: map<string, Json>, days: seq<Json>, parse: Parser, pyStr: Json -> string) {
    forall i {:trigger DayReadable(state, days[i], parse, pyStr)} :: 0 <= i < |days| ==> DayReadable(state, days[i], parse, pyStr)
  }

  /** The planned searches, one per day that is not skipped, in day-list order. */
  function SearchPlan(state: map<string, Json>, days: seq<Json>, parse: Parser, pyStr: Json -> string): (r: seq<SearchTask>)
    requires DaysReadableFor(state, days, parse, pyStr)
    ensures |r| <= |days|
    decreases |days|
  {
    if days == [] then []
    else
      var before := SearchPlan(state, days[..|days| - 1], parse, pyStr);
      match TaskFor(state, days[|days| - 1], parse, pyStr)
      case None => before
      case Some(task) => before + [task]
  }

  /** Every planned search has a truthy day number and truthy coordinates. */
  lemma {:induction false} PlanOnlyUsable(state: map<string, Json>, days: seq<Json>, parse: Parser, pyStr: Json -> string)
    requires DaysReadableFor(state, days, parse, pyStr)
    ensures forall t :: t in SearchPlan(state, days, parse, pyStr) ==>
      Truthy(t.day) && Truthy(t.latitude) && Truthy(t.longitude)
  {
    if days != [] {
      assert DaysReadableFor(state, days[..|days| - 1], parse, pyStr);
      PlanOnlyUsable(state, days[..|days| - 1], parse, pyStr);
    }
  }

  /** Every prefix of a readable day list is readable. */
  lemma PrefixReadable(state: map<string, Json>, days: seq<Json>, parse: Parser, pyStr: Json -> string, d: nat)
    requires DaysReadableFor(state, days, parse, pyStr) && d <= |days|
    ensures DaysReadableFor(state, days[..d], parse, pyStr)
  {
    forall i | 0 <= i < d
      ensures DayReadable(state, days[..d][i], parse, pyStr)
    {
      assert days[..d][i] == days[i];
    }
  }

  /** The plan for one more day extends the plan by that day's search, if any. */
  lemma PlanStep(state: map<string, Json>, days: seq<Json>, parse: Parser, pyStr: Json -> string, d: nat)
    requires DaysReadableFor(state, days, parse, pyStr) && d < |days|
    ensures DaysReadableFor(state, days[..d], parse, pyStr) && DaysReadableFor(state, days[..d + 1], parse, pyStr)
    ensures TaskFor(state, days[d], parse, pyStr).None? ==>
      SearchPlan(state, days[..d + 1], parse, pyStr) == SearchPlan(state, days[..d], parse, pyStr)
    ensures TaskFor(state, days[d], parse, pyStr).Some? ==>
      SearchPlan(state, days[..d + 1], parse, pyStr)
        == SearchPlan(state, days[..d], parse, pyStr) + [TaskFor(state, days[d], parse, pyStr).value]
  {
    PrefixReadable(state, days, parse, pyStr, d);
    PrefixReadable(state, days, parse, pyStr, d + 1);
    assert days[..d + 1][..d] == days[..d];
    assert days[..d + 1][d] == days[d];
  }

  /** One pass of the planning loop: the day's search, if any, is appended. */
  method PlanDay(state: map<string, Json>, days: seq<Json>, parse: Parser, pyStr: Json -> string, d: nat, tasks: seq<SearchTask>)
    returns (next: seq<SearchTask>)
    requires DaysReadableFor(state, days, parse, pyStr) && d < |days|
    requires DaysReadableFor(state, days[..d], parse, pyStr) && tasks == SearchPlan(state, days[..d], parse, pyStr)
    ensures DaysReadableFor(state, days[..d + 1], parse, pyStr) && next == SearchPlan(state, days[..d + 1], parse, pyStr)
  {
    PlanStep(state, days, parse, pyStr, d);
    next := tasks;
    var task := TaskFor(state, days[d], parse, pyStr);
    if task.Some? {
      next := next + [task.value];
    }
  }

  /** The planning loop over the day list. */
  method PlanSearches(state: map<string, Json>, days: seq<Json>, parse: Parser, pyStr: Json -> string)
    returns (tasks: seq<SearchTask>)
    requires DaysReadableFor(state, days, parse, pyStr)
    ensures tasks == SearchPlan(state, days, parse, pyStr)
  {
    tasks := [];
    var d := 0;
    PrefixReadable(state, days, parse, pyStr, 0);
    while d < |days|
      invariant 0 <= d <= |days|
      invariant DaysReadableFor(state, days[..d], parse, pyStr)
      invariant tasks == SearchPlan(state, days[..d], parse, pyStr)
    {
      tasks := PlanDay(state, days, parse, pyStr, d, tasks);
      d := d + 1;
    }
    assert days[..d] == days;
  }

  /** The queries the planned searches send: radius 5 km, at most 20 results. */
  function Queries(tasks: seq<SearchTask>): (r: seq<ActivityQuery>)
    ensures |r| == |tasks|
    ensures forall i :: 0 <= i < |r| ==>
      r[i].latitude == tasks[i].latitude && r[i].longitude == tasks[i].longitude
      && r[i].radiusKm == 5 && r[i].maxResults == 20
  {
    seq(|tasks|, i requires 0 <= i < |tasks| =>
      ItineraryAmadeus.ActivitiesQuery(tasks[i].latitude, tasks[i].longitude, SearchRadiusKm, SearchMaxResults))
  }

  // ---------------------------------------------------------------------------
  // Storing the results

  /** `f'activities_day_{day_num}'`. */
  function DayKey(day: Json, pyStr: Json -> string): string {
    "activities_day_" + Show(day, pyStr)
  }

  /** Two integer day numbers share a result key only when they are equal. */
  lemma DayKeyInjective(a: int, b: int, pyStr: Json -> string)
    requires DayKey(JInt(a), pyStr) == DayKey(JInt(b), pyStr)
    ensures a == b
  {
    var p := "activities_day_";
    assert IntToString(a) == DayKey(JInt(a), pyStr)[|p|..];
    assert IntToString(b) == DayKey(JInt(b), pyStr)[|p|..];
    IntToStringInjective(a, b);
  }

  /** The state after writing the results of the first `n` searches in order;
      search `i` answers `tasks[i]`, and one that raised writes nothing. */
  function Record(state: map<string, Json>, tasks: seq<SearchTask>, search: nat -> Outcome<ClientReply>,
                  pyStr: Json -> string, n: nat): map<string, Json>
    requires n <= |tasks|
  {
    if n == 0 then state
    else
      var before := Record(state, tasks, search, pyStr, n - 1);
      var task := tasks[n - 1];
      match search(n - 1)
      case Raised(_) => before
      case Ok(reply) =>
        before[DayKey(task.day, pyStr) := ItineraryAmadeus.SearchActivities(task.latitude, task.longitude, SearchRadiusKm, reply)]
  }

  function Written(tasks: seq<SearchTask>, search: nat -> Outcome<ClientReply>, pyStr: Json -> string, n: nat): (r: set<string>)
    requires n <= |tasks|
    ensures forall i :: 0 <= i < n && search(i).Ok? ==> DayKey(tasks[i].day, pyStr) in r
    ensures forall k :: k in r ==> exists i :: 0 <= i < n && search(i).Ok? && k == DayKey(tasks[i].day, pyStr)
  {
    if n == 0 then {}
    else Written(tasks, search, pyStr, n - 1) + (if search(n - 1).Ok? then {DayKey(tasks[n - 1].day, pyStr)} else {})
  }

  /** Only the `activities_day_` keys of searches that returned are added, and
      every other key keeps its value. */
  lemma {:induction false} RecordKeys(state: map<string, Json>, tasks: seq<SearchTask>, search: nat -> Outcome<ClientReply>,
                                      pyStr: Json -> string, n: nat)
    requires n <= |tasks|
    ensures Record(state, tasks, search, pyStr, n).Keys == state.Keys + Written(tasks, search, pyStr, n)
    ensures forall k :: k in state && k !in Written(tasks, search, pyStr, n) ==>
      Record(state, tasks, search, pyStr, n)[k] == state[k]
  {
    if n > 0 {
      RecordKeys(state, tasks, search, pyStr, n - 1);
    }
  }

  /** A returned search's result is what its day key holds, unless a later
      returned search for the same key overwrote it. */
  lemma {:induction false} RecordLastWins(state: map<string, Json>, tasks: seq<SearchTask>, search: nat -> Outcome<ClientReply>,
                                          pyStr: Json -> string, n: nat, i: nat)
    requires i < n <= |tasks| && search(i).Ok?
    requires forall j :: i < j < n && search(j).Ok? ==> DayKey(tasks[j].day, pyStr) != DayKey(tasks[i].day, pyStr)
    ensures DayKey(tasks[i].day, pyStr) in Record(state, tasks, search, pyStr, n)
    ensures Record(state, tasks, search, pyStr, n)[DayKey(tasks[i].day, pyStr)]
      == ItineraryAmadeus.SearchActivities(tasks[i].latitude, tasks[i].longitude, SearchRadiusKm, search(i).value)
  {
    if i < n - 1 {
      RecordLastWins(state, tasks, search, pyStr, n - 1, i);
    }
  }

  /** The loop over the gathered results. */
  method StoreResults(session: Session, tasks: seq<SearchTask>, search: nat -> Outcome<ClientReply>, pyStr: Json -> string)
    modifies session
    ensures session.state == Record(old(session.state), tasks, search, pyStr, |tasks|)
  {
    var k := 0;
    while k < |tasks|
      invariant 0 <= k <= |tasks|
      invariant session.state == Record(old(session.state), tasks, search, pyStr, k)
    {
      if search(k).Ok? {
        var task := tasks[k];
        session.state := session.state[DayKey(task.day, pyStr) :=
          ItineraryAmadeus.SearchActivities(task.latitude, task.longitude, SearchRadiusKm, search(k).value)];
      }
      k := k + 1;
    }
  }

  // ---------------------------------------------------------------------------
  // The stage

  predicate Readable(state: map<string, Json>, parse: Parser, pyStr: Json -> string) {
    DaysReadable(state, parse)
    && (AcceptedDays(state, parse).Some? ==> DaysReadableFor(state, AcceptedDays(state, parse).value, parse, pyStr))
  }

  /** The searches the stage plans: none when it stops at the gate or the day
      list is empty. */
  function Plan(state: map<string, Json>, parse: Parser, pyStr: Json -> string): (r: seq<SearchTask>)
    requires Readable(state, parse, pyStr)
    ensures AcceptedDays(state, parse).None? ==> r == []
    // past the gate: the plan of the accepted days
    ensures AcceptedDays(state, parse).Some? ==> r == SearchPlan(state, AcceptedDays(state, parse).value, parse, pyStr)
  {
    match AcceptedDays(state, parse)
    case None => []
    case Some(days) => SearchPlan(state, days, parse, pyStr)
  }

  /** `ActivitySearchAgent._run_async_impl`: gate on `parsed_days`, plan one
      search per usable day, and store each search that returned. Search `i`
      answers `Plan(...)[i]`. */
  method SearchActivities(session: Session, parse: Parser, pyStr: Json -> string, search: nat -> Outcome<ClientReply>)
    returns (queries: seq<ActivityQuery>)
    requires Readable(session.state, parse, pyStr)
    modifies session
    ensures queries == Queries(Plan(old(session.state), parse, pyStr))
    ensures session.state == Record(old(session.state), Plan(old(session.state), parse, pyStr), search, pyStr,
                                    |Plan(old(session.state), parse, pyStr)|)
    // nothing to search: no search and no write
    ensures Plan(old(session.state), parse, pyStr) == [] ==> queries == [] && session.state == old(session.state)
  {
    queries := [];
    var days := AcceptedDays(session.state, parse);
    if days.None? || days.value == [] {
      return;
    }
    var tasks := PlanSearches(session.state, days.value, parse, pyStr);
    if tasks == [] {
      return;
    }
    queries := Queries(tasks);
    StoreResults(session, tasks, search, pyStr);
  }
}

=== FILE: amadeus_itinerary.dfy ===
/** The itinerary pipeline's provider tools: they turn the client's reply
    into the result dict that is stored in the session state. */
module ItineraryAmadeus {
  import opened Wrappers
  import opened JsonValue
  import opened Client

  /** Default `radius_km` and `max_results` of `search_activities`. */
  const DefaultRadiusKm: int := 5
  const DefaultMaxResults: int := 15

  /** `search_location` always asks the client for at most five cities. */
  const CityLimit: nat := 5

  /** The query `search_location(name, country_code)` sends to the client. */
  function LocationQuery(name: string, countryCode: Option<string>): (q: CityQuery)
    ensures q.keyword == name && q.countryCode == countryCode && q.maxResults == CityLimit
  {
    CityQuery(name, countryCode, CityLimit)
  }

  /** `search_location`: classifies the client reply. */
  function SearchLocation(name: string, reply: ClientReply): (r: Json)
    ensures r.JObj? && Get(r.fields, "success") == JBool(HasRecords(reply))
    ensures reply.ApiError? ==>
      Get(r.fields, "error") == JStr(reply.message)
      && Get(r.fields, "suggestions").JArr? && |Get(r.fields, "suggestions").items| == 3
    ensures reply == Records([]) ==>
      Get(r.fields, "message") == JStr("No locations found for \"" + name + "\"")
      && "locations" !in r.fields && "primary_location" !in r.fields
    ensures HasRecords(reply) ==>
      Get(r.fields, "count") == JInt(|reply.items|)
      && Get(r.fields, "locations") == JArr(reply.items)
      && Get(r.fields, "primary_location") == reply.items[0]
  {
    match reply
    case ApiError(message) =>
      JObj(map[
        "success" := JBool(false),
        "error" := JStr(message),
        "suggestions" := JArr([
          JStr("Try a different spelling"),
          JStr("Add a country code"),
          JStr("Use a nearby major city")])])
    case Records(items) =>
      if |items| == 0 then
        JObj(map[
          "success" := JBool(false),
          "message" := JStr("No locations found for \"" + name + "\"")])
      else
        JObj(map[
          "success" := JBool(true),
          "count" := JInt(|items|),
          "locations" := JArr(items),
          "primary_location" := items[0]])
  }

  /** The query `search_activities(lat, lon, radius_km, max_results)` sends. */
  function ActivitiesQuery(latitude: Json, longitude: Json, radiusKm: int, maxResults: int): (q: ActivityQuery)
    ensures q.latitude == latitude && q.longitude == longitude
    ensures q.radiusKm == radiusKm && q.maxResults == maxResults
  {
    ActivityQuery(latitude, longitude, radiusKm, maxResults)
  }

  /** `search_activities`: classifies the client reply. */
  function SearchActivities(latitude: Json, longitude: Json, radiusKm: int, reply: ClientReply): (r: Json)
    ensures r.JObj? && Get(r.fields, "success") == JBool(HasRecords(reply))
    ensures !HasRecords(reply) ==> "activities" !in r.fields
    ensures reply.ApiError? ==> Get(r.fields, "error") == JStr(reply.message)
    ensures reply == Records([]) ==>
      Get(r.fields, "message") == JStr("No activities found within " + IntToString(radiusKm) + "km")
    ensures HasRecords(reply) ==>
      Get(r.fields, "count") == JInt(|reply.items|)
      && Get(r.fields, "activities") == JArr(reply.items)
      && Get(r.fields, "search_params") == JObj(map[
           "latitude" := latitude, "longitude" := longitude, "radius_km" := JInt(radiusKm)])
  {
    match reply
    case ApiError(message) =>
      JObj(map["success" := JBool(false), "error" := JStr(message)])
    case Records(items) =>
      if |items| == 0 then
        JObj(map[
          "success" := JBool(false),
          "message" := JStr("No activities found within " + IntToString(radiusKm) + "km")])
      else
        JObj(map[
          "success" := JBool(true),
          "count" := JInt(|items|),
          "search_params" := JObj(map[
            "latitude" := latitude, "longitude" := longitude, "radius_km" := JInt(radiusKm)]),
          "activities" := JArr(items)])
  }

  /** A call that relies on the defaults echoes radius 5 and asks for 15. */
  lemma DefaultsUsed(latitude: Json, longitude: Json, reply: ClientReply)
    ensures ActivitiesQuery(latitude, longitude, DefaultRadiusKm, DefaultMaxResults).radiusKm == 5
    ensures ActivitiesQuery(latitude, longitude, DefaultRadiusKm, DefaultMaxResults).maxResults == 15
    ensures HasRecords(reply) ==>
      Get(Get(SearchActivities(latitude, longitude, DefaultRadiusKm, reply).fields, "search_params").fields,
          "radius_km") == JInt(5)
  {
  }
}

=== FILE: amadeus_travel.dfy ===
/** The conversational travel agent's variant of the provider tools: the
    same classification, with suggestions attached to every failure and a
    default search radius of 2 km. */
module TravelAmadeus {
  import opened Wrappers
  import opened JsonValue
  import opened Client
  import ItineraryAmadeus

  /** Default `radius_km` and `max_results` of the travel agent's
      `search_activities`; its queries are the ones `ItineraryAmadeus`
      builds, `LocationQuery` and `ActivitiesQuery`. */
  const DefaultRadiusKm: int := 2
  const DefaultMaxResults: int := 15

  /** A list of three suggestion strings. */
  function Suggestions(a: string, b: string, c: string): (r: Json)
    ensures r.JArr? && |r.items| == 3
  {
    JArr([JStr(a), JStr(b), JStr(c)])
  }

  /** `search_location` of the travel agent. */
  function SearchLocation(name: string, reply: ClientReply): (r: Json)
    ensures r.JObj? && Get(r.fields, "success") == JBool(HasRecords(reply))
    ensures !HasRecords(reply) ==>
      Get(r.fields, "suggestions").JArr? && |Get(r.fields, "suggestions").items| == 3
    ensures reply.ApiError? ==> Get(r.fields, "error") == JStr(reply.message)
    ensures reply == Records([]) ==>
      Get(r.fields, "message") == JStr("No locations found for \"" + name + "\"")
    ensures HasRecords(reply) ==>
      Get(r.fields, "count") == JInt(|reply.items|)
      && Get(r.fields, "locations") == JArr(reply.items)
      && Get(r.fields, "primary_location") == reply.items[0]
  {
    match reply
    case ApiError(message) =>
      JObj(map[
        "success" := JBool(false),
        "error" := JStr(message),
        "suggestions" := Suggestions(
          "Try a different spelling of the location",
          "Add a country code to narrow the search",
          "Use a nearby major city name instead")])
    case Records(items) =>
      if |items| == 0 then
        JObj(map[
          "success" := JBool(false),
          "message" := JStr("No locations found for \"" + name + "\""),
          "suggestions" := Suggestions(
            "Check the spelling",
            "Try a nearby major city",
            "Use a country code to help narrow the search")])
      else
        JObj(map[
          "success" := JBool(true),
          "count" := JInt(|items|),
          "locations" := JArr(items),
          "primary_location" := items[0]])
  }

  /** `search_activities` of the travel agent. */
  function SearchActivities(latitude: Json, longitude: Json, radiusKm: int, reply: ClientReply): (r: Json)
    ensures r.JObj? && Get(r.fields, "success") == JBool(HasRecords(reply))
    ensures !HasRecords(reply) ==>
      "activities" !in r.fields
      && Get(r.fields, "suggestions").JArr? && |Get(r.fields, "suggestions").items| == 3
    ensures reply.ApiError? ==> Get(r.fields, "error") == JStr(reply.message)
    ensures reply == Records([]) ==>
      Get(r.fields, "message") ==
        JStr("No activities found within " + IntToString(radiusKm) + "km of the specified location")
      && Get(r.fields, "suggestions").items[0] ==
        JStr("Try increasing the radius (currently " + IntToString(radiusKm) + "km)")
    ensures HasRecords(reply) ==>
      Get(r.fields, "count") == JInt(|reply.items|)
      && Get(r.fields, "activities") == JArr(reply.items)
      && Get(r.fields, "search_params") == JObj(map[
           "latitude" := latitude, "longitude" := longitude, "radius_km" := JInt(radiusKm)])
  {
    match reply
    case ApiError(message) =>
      JObj(map[
        "success" := JBool(false),
        "error" := JStr(message),
        "suggestions" := Suggestions(
          "Try a larger search radius",
          "Search a nearby major tourist area",
          "Verify the coordinates are correct")])
    case Records(items) =>
      if |items| == 0 then
        JObj(map[
          "success" := JBool(false),
          "message" := JStr("No activities found within " + IntToString(radiusKm) + "km of the specified location"),
          "suggestions" := Suggestions(
            "Try increasing the radius (currently " + IntToString(radiusKm) + "km)",
            "Search for activities in a nearby major city",
            "This location may not have many tourist activities")])
      else
        JObj(map[
          "success" := JBool(true),
          "count" := JInt(|items|),
          "search_params" := JObj(map[
            "latitude" := latitude, "longitude" := longitude, "radius_km" := JInt(radiusKm)]),
          "activities" := JArr(items)])
  }

  /** The two tool sets agree on every successful reply: only their failure
      dicts differ. */
  lemma AgreesWithItineraryTools(name: string, latitude: Json, longitude: Json, radiusKm: int, reply: ClientReply)
    requires HasRecords(reply)
    ensures SearchLocation(name, reply) == ItineraryAmadeus.SearchLocation(name, reply)
    ensures SearchActivities(latitude, longitude, radiusKm, reply)
         == ItineraryAmadeus.SearchActivities(latitude, longitude, radiusKm, reply)
  {
  }
}

=== FILE: client.dfy ===
/** The boundary to the travel-data provider. The provider's client is not
    part of this model: a lookup is described by the query the tool sends and
    by the reply the client gives back, which is either the list of records
    or the client's error dict `{error: True, message, code}`. */
module Client {
  import opened Wrappers
  import opened JsonValue

  /** What the client returns: its records, or an API error message. */
  datatype ClientReply = Records(items: seq<Json>) | ApiError(message: string)

  /** `search_city(keyword, country_code, max_results)`. */
  datatype CityQuery = CityQuery(keyword: string, countryCode: Option<string>, maxResults: nat)

  /** `search_tours_and_activities(latitude, longitude, radius, max_results)`. */
  datatype ActivityQuery = ActivityQuery(latitude: Json, longitude: Json, radiusKm: int, maxResults: int)

  /** Python truthiness of the client's return value: only a non-empty
      record list is truthy on the success side. */
  predicate HasRecords(reply: ClientReply) {
    reply.Records? && |reply.items| > 0
  }
}

=== FILE: formatter.dfy ===
/** The formatter stage: renders `enriched_itinerary` as the markdown report
    stored under `formatted_itinerary`. */
module Formatter {
  import opened Wrappers
  import opened JsonValue
  import opened Text
  import opened SessionState

  const EnrichedKey := "enriched_itinerary"
  const FormattedKey := "formatted_itinerary"

  const Title := "# Your Enriched Travel Itinerary\n"
  const Separator := "\n---\n"
  const SummaryHeading := "\n## Summary\n\n"
  const FooterRule := "---\n\n"
  const Footer := "*All tour data provided by Amadeus API*\n"
  const WarningsHeading := "### ⚠️ Warnings\n\n"
  const NoTourHeading := "### ⚠️ No Tour Matched\n"

  const InvalidData := "Error: Invalid enriched itinerary data"
  const NoItinerary := "Error: No enriched itinerary available"

  /** `''.join(parts)`. */
  function Concat(parts: seq<string>): string {
    if parts == [] then "" else Concat(parts[..|parts| - 1]) + parts[|parts| - 1]
  }

  lemma {:induction false} ConcatAppend(a: seq<string>, b: seq<string>)
    ensures Concat(a + b) == Concat(a) + Concat(b)
    decreases |b|
  {
    if b == [] {
      assert a + b == a;
    } else {
      var init, last := b[..|b| - 1], b[|b| - 1];
      assert (a + b)[..|a + b| - 1] == a + init;
      ConcatAppend(a, init);
      var x, y := Concat(a), Concat(init);
      assert Concat(a + b) == (x + y) + last;
      assert (x + y) + last == x + (y + last);
    }
  }

  // ---------------------------------------------------------------------------
  // Shapes

  /** What the tour branch reads without checking: price and geoCode are
      dicts, a truthy description is text and truthy pictures are a list or
      a string. */
  predicate TourReadable(tour: Json) {
    tour.JObj?
    && var m := tour.fields;
       (Truthy(GetOr(m, "description", JStr("No description available"))) ==>
          GetOr(m, "description", JStr("No description available")).JStr?)
       && GetOr(m, "price", JObj(map[])).JObj?
       && GetOr(m, "geoCode", JObj(map[])).JObj?
       && (Truthy(GetOr(m, "pictures", JArr([]))) ==>
             GetOr(m, "pictures", JArr([])).JArr? || GetOr(m, "pictures", JArr([])).JStr?)
  }

  /** A day entry is a dict; a truthy matched tour is readable and its
      confidence is text (it is upper-cased). */
  predicate DayReadable(day: Json) {
    day.JObj?
    && (Truthy(Get(day.fields, "matched_tour")) ==>
          TourReadable(Get(day.fields, "matched_tour"))
          && GetOr(day.fields, "confidence", JStr("unknown")).JStr?)
  }

  // ---------------------------------------------------------------------------
  // Cost

  /** `float(x)`, or None where it raises ValueError or TypeError; the
      conversion of text is a parameter. */
  function ToFloat(v: Json, textToFloat: string -> Option<real>): (r: Option<real>)
    ensures v.JInt? ==> r == Some(v.i as real)
    ensures v.JNull? || v.JArr? || v.JObj? ==> r == None
  {
    match v
    case JInt(i) => Some(i as real)
    case JReal(x) => Some(x)
    case JBool(b) => Some(if b then 1.0 else 0.0)
    case JStr(s) => textToFloat(s)
    case _ => None
  }

  /** A matched tour's price amount and currency, when the amount counts. */
  datatype Priced = Priced(amount: real, currency: Json)

  function DayCost(day: Json, textToFloat: string -> Option<real>): (r: Option<Priced>)
    requires DayReadable(day)
    // only a matched tour with an amount other than "N/A" that converts counts
    ensures r.Some? <==>
      Truthy(Get(day.fields, "matched_tour"))
      && var price := GetOr(Get(day.fields, "matched_tour").fields, "price", JObj(map[])).fields;
         GetOr(price, "amount", JStr("N/A")) != JStr("N/A")
         && ToFloat(GetOr(price, "amount", JStr("N/A")), textToFloat).Some?
  {
    var tour := Get(day.fields, "matched_tour");
    if !Truthy(tour) then None
    else
      var price := GetOr(tour.fields, "price", JObj(map[])).fields;
      var amount := GetOr(price, "amount", JStr("N/A"));
      if amount == JStr("N/A") then None
      else
        match ToFloat(amount, textToFloat)
        case None => None
        case Some(x) => Some(Priced(x, GetOr(price, "currencyCode", JStr("USD"))))
  }

  predicate DaysReadableFor(days: seq<Json>) {
    forall i {:trigger DayReadable(days[i])} :: 0 <= i < |days| ==> DayReadable(days[i])
  }

  /** The running total after the given days. */
  function Total(days: seq<Json>, textToFloat: string -> Option<real>): real
    requires DaysReadableFor(days)
  {
    if days == [] then 0.0
    else
      var before := Total(days[..|days| - 1], textToFloat);
      match DayCost(days[|days| - 1], textToFloat)
      case None => before
      case Some(p) => before + p.amount
  }

  /** `currency` after the given days: set by the first counted tour while it
      is still None. */
  function Currency(days: seq<Json>, textToFloat: string -> Option<real>): Json
    requires DaysReadableFor(days)
  {
    if days == [] then JNull
    else
      var before := Currency(days[..|days| - 1], textToFloat);
      match DayCost(days[|days| - 1], textToFloat)
      case None => before
      case Some(p) => if before == JNull then p.currency else before
  }

  /** Days without a counted price add nothing, so without any matched tour
      the total stays 0 and no cost line is rendered. */
  lemma {:induction false} NothingCountedNoCost(days: seq<Json>, textToFloat: string -> Option<real>)
    requires DaysReadableFor(days)
    requires forall i :: 0 <= i < |days| ==> DayCost(days[i], textToFloat).None?
    ensures Total(days, textToFloat) == 0.0 && Currency(days, textToFloat) == JNull
  {
    if days != [] {
      NothingCountedNoCost(days[..|days| - 1], textToFloat);
    }
  }

  /** The currency is the first counted tour's currency code: a counted day
      whose currency is not None fixes it, whatever the later days hold. */
  lemma {:induction false} FirstCurrencyWins(days: seq<Json>, textToFloat: string -> Option<real>, k: nat)
    requires DaysReadableFor(days) && k < |days|
    requires DayCost(days[k], textToFloat).Some? && DayCost(days[k], textToFloat).value.currency != JNull
    requires forall i :: 0 <= i < k ==> DayCost(days[i], textToFloat).None?
    ensures Currency(days, textToFloat) == DayCost(days[k], textToFloat).value.currency
  {
    if k < |days| - 1 {
      FirstCurrencyWins(days[..|days| - 1], textToFloat, k);
    } else {
      NothingCountedNoCost(days[..k], textToFloat);
    }
  }

  // ---------------------------------------------------------------------------
  // One day's section

  function PhotoLine(i: nat, picture: Json, pyStr: Json -> string): string {
    "![Tour photo " + NatToString(i + 1) + "](" + Show(picture, pyStr) + ")\n"
  }

  function MoreLine(k: nat): string {
    "*...and " + NatToString(k) + " more photos*\n"
  }

  function Min(a: nat, b: nat): nat {
    if a <= b then a else b
  }

  /** The elements `len`, slicing and iteration see: a list's items, or a
      string's characters, one string each. */
  function Items(pictures: Json): (r: seq<Json>)
    requires pictures.JArr? || pictures.JStr?
    ensures pictures.JArr? ==> r == pictures.items
    ensures pictures.JStr? ==> |r| == |pictures.s| && forall i :: 0 <= i < |r| ==> r[i] == JStr([pictures.s[i]])
  {
    if pictures.JArr? then pictures.items
    else seq(|pictures.s|, i requires 0 <= i < |pictures.s| => JStr([pictures.s[i]]))
  }

  /** The photo block for the given pictures: a count line, the first three
      pictures, and a line for the rest. */
  function PhotoBlock(items: seq<Json>, pyStr: Json -> string): (r: seq<string>)
    ensures var n := |items|;
      |r| == 1 + Min(3, n) + (if n > 3 then 1 else 0)
      && r[0] == "\n**Photos:** (" + NatToString(n) + " available)\n"
      && (forall i :: 0 <= i < Min(3, n) ==> r[i + 1] == PhotoLine(i, items[i], pyStr))
    ensures |items| > 3 ==> r[|r| - 1] == MoreLine(|items| - 3)
    ensures 0 < |items| <= 3 ==> forall k :: r[|r| - 1] != MoreLine(k)
  {
    var n := |items|;
    var shown := items[..Min(3, n)];
    var lines := seq(|shown|, i requires 0 <= i < |shown| => PhotoLine(i, shown[i], pyStr));
    var r := ["\n**Photos:** (" + NatToString(n) + " available)\n"] + lines + (if n > 3 then [MoreLine(n - 3)] else []);
    assert 0 < n <= 3 ==> forall k :: r[|r| - 1] != MoreLine(k) by {
      if 0 < n <= 3 {
        assert r[|r| - 1][0] != '*';
        forall k ensures MoreLine(k)[0] == '*' { }
      }
    }
    r
  }

  /** `if pictures:` then the photo block. */
  function PhotoParts(pictures: Json, pyStr: Json -> string): (r: seq<string>)
    requires Truthy(pictures) ==> pictures.JArr? || pictures.JStr?
    ensures !Truthy(pictures) ==> r == []
    ensures Truthy(pictures) ==> |Items(pictures)| > 0 && r == PhotoBlock(Items(pictures), pyStr)
  {
    if !Truthy(pictures) then [] else PhotoBlock(Items(pictures), pyStr)
  }

  /** The description as rendered: tags removed from a truthy one. */
  function Description(tour: Json): (r: Json)
    requires TourReadable(tour)
    ensures r.JStr? && Truthy(GetOr(tour.fields, "description", JStr("No description available"))) ==> NoTag(r.s)
  {
    var d := GetOr(tour.fields, "description", JStr("No description available"));
    if Truthy(d) then StripTagsLeavesNoTag(d.s); JStr(StripTags(d.s)) else d
  }

  /** The matched-tour part of a day's section. */
  function TourParts(tour: Json, confidence: string, reasoning: Json, pyStr: Json -> string): (r: seq<string>)
    requires TourReadable(tour)
    ensures r != [] && r[0] == "### ✅ Matched Tour: " + Show(GetOr(tour.fields, "name", JStr("Unnamed Tour")), pyStr) + "\n"
    // the description is rendered with its tags removed
    ensures "**Description:**\n" + Show(Description(tour), pyStr) + "\n\n" in r
    // the section ends with the photo lines
    ensures var p := PhotoParts(GetOr(tour.fields, "pictures", JArr([])), pyStr);
      |r| >= |p| && r[|r| - |p|..] == p
  {
    var m := tour.fields;
    var price := GetOr(m, "price", JObj(map[])).fields;
    var geocode := GetOr(m, "geoCode", JObj(map[])).fields;
    var link := GetOr(m, "booking_link", JStr(""));
    ["### ✅ Matched Tour: " + Show(GetOr(m, "name", JStr("Unnamed Tour")), pyStr) + "\n",
     "**Confidence:** " + Upper(confidence) + "\n"]
    + (if Truthy(reasoning) then ["**Why this match:** " + Show(reasoning, pyStr) + "\n\n"] else [])
    + ["**Description:**\n" + Show(Description(tour), pyStr) + "\n\n",
       "**Details:**\n",
       "- **Tour ID:** " + Show(GetOr(m, "id", JStr("N/A")), pyStr) + "\n",
       "- **Type:** " + Show(GetOr(m, "type", JStr("activity")), pyStr) + "\n",
       "- **Duration:** " + Show(GetOr(m, "minimumDuration", JStr("Duration not specified")), pyStr) + "\n",
       "- **Price:** " + Show(GetOr(price, "amount", JStr("N/A")), pyStr) + " "
         + Show(GetOr(price, "currencyCode", JStr("USD")), pyStr) + "\n",
       "- **Location:** " + Show(GetOr(geocode, "latitude", JStr("N/A")), pyStr) + ", "
         + Show(GetOr(geocode, "longitude", JStr("N/A")), pyStr) + "\n\n"]
    + (if Truthy(link) then ["**[\U{1F4C5} Book This Tour](" + Show(link, pyStr) + ")**\n"] else [])
    + PhotoParts(GetOr(m, "pictures", JArr([])), pyStr)
  }

  function Heading(day: Json, pyStr: Json -> string): string
    requires day.JObj?
  {
    var location := GetOr(day.fields, "location", JStr("Unknown"));
    "\n## Day " + Show(GetOr(day.fields, "day", JStr("?")), pyStr) + ": " + Show(location, pyStr) + "\n"
  }

  /** One day's section: heading, request, overnight, the tour or the reason
      nothing matched, and the separator. */
  function DayParts(day: Json, pyStr: Json -> string): (r: seq<string>)
    requires DayReadable(day)
    ensures |r| >= 6 && r[0] == Heading(day, pyStr) && r[|r| - 1] == Separator
    ensures !Truthy(Get(day.fields, "matched_tour")) ==>
      r[3] == NoTourHeading
      && r[4] == "**Reason:** " + Show(GetOr(day.fields, "reasoning", JStr("")), pyStr) + "\n\n"
    // a matched day: the tour section sits between the three opening lines and the separator
    ensures Truthy(Get(day.fields, "matched_tour")) ==>
      r[3..|r| - 1] == TourParts(Get(day.fields, "matched_tour"), GetOr(day.fields, "confidence", JStr("unknown")).s,
                                 GetOr(day.fields, "reasoning", JStr("")), pyStr)
  {
    var m := day.fields;
    var location := GetOr(m, "location", JStr("Unknown"));
    var tour := Get(m, "matched_tour");
    var reasoning := GetOr(m, "reasoning", JStr(""));
    [Heading(day, pyStr),
     "**Requested Activity:** " + Show(GetOr(m, "activity_requested", JStr("No activity specified")), pyStr) + "\n",
     "**Overnight:** " + Show(GetOr(m, "overnight", location), pyStr) + "\n\n"]
    + (if Truthy(tour) then TourParts(tour, GetOr(m, "confidence", JStr("unknown")).s, reasoning, pyStr)
       else [NoTourHeading, "**Reason:** " + Show(reasoning, pyStr) + "\n\n"])
    + [Separator]
  }

  /** The sections of the given days, in order. */
  function Sections(days: seq<Json>, pyStr: Json -> string): seq<string>
    requires DaysReadableFor(days)
  {
    if days == [] then [] else Sections(days[..|days| - 1], pyStr) + DayParts(days[|days| - 1], pyStr)
  }

  /** Every prefix of a readable day list is readable. */
  lemma PrefixReadable(days: seq<Json>, d: nat)
    requires DaysReadableFor(days) && d <= |days|
    ensures DaysReadableFor(days[..d])
  {
    forall i | 0 <= i < d
      ensures DayReadable(days[..d][i])
    {
      assert days[..d][i] == days[i];
    }
  }

  // ---------------------------------------------------------------------------
  // The report

  /** The warnings block: present only for truthy warnings, one line each. */
  function WarningParts(warnings: Json, pyStr: Json -> string): (r: seq<string>)
    requires !Truthy(warnings) || warnings.JArr? || warnings.JStr?
    ensures !Truthy(warnings) <==> r == []
    ensures Truthy(warnings) ==>
      |r| == |Items(warnings)| + 2 && r[0] == WarningsHeading && r[|r| - 1] == "\n"
      && forall i :: 0 <= i < |Items(warnings)| ==> r[i + 1] == "- " + Show(Items(warnings)[i], pyStr) + "\n"
  {
    if !Truthy(warnings) then []
    else
      var items := Items(warnings);
      [WarningsHeading] + seq(|items|, i requires 0 <= i < |items| => "- " + Show(items[i], pyStr) + "\n") + ["\n"]
  }

  function CostLine(total: real, currency: Json, fmt2: real -> string, pyStr: Json -> string): string {
    "**Total Estimated Cost:** " + fmt2(total) + " " + (if Truthy(currency) then Show(currency, pyStr) else "USD") + "\n\n"
  }

  /** The closing parts: the summary heading, the cost line only for a
      positive total, the warnings, and the footer. */
  function ClosingParts(total: real, currency: Json, warnings: Json, fmt2: real -> string, pyStr: Json -> string): (r: seq<string>)
    requires !Truthy(warnings) || warnings.JArr? || warnings.JStr?
    ensures |r| >= 3 && r[0] == SummaryHeading && r[|r| - 2] == FooterRule && r[|r| - 1] == Footer
    ensures total > 0.0 <==> r[1] == CostLine(total, currency, fmt2, pyStr)
  {
    var r := [SummaryHeading] + (if total > 0.0 then [CostLine(total, currency, fmt2, pyStr)] else [])
      + WarningParts(warnings, pyStr) + [FooterRule, Footer];
    assert total <= 0.0 ==> r[1] != CostLine(total, currency, fmt2, pyStr) by {
      if total <= 0.0 {
        assert CostLine(total, currency, fmt2, pyStr)[0] == '*';
        assert r[1][0] != '*';
      }
    }
    r
  }

  /** The shapes the stage relies on: a truthy decoded value is a dict; when
      accepted, its days are a list of readable days or an empty dict or
      string, and its warnings are falsy, a list or text. */
  predicate Readable(state: map<string, Json>, parse: Parser) {
    var p := Decode(Get(state, EnrichedKey), parse);
    p.Success? ==>
      (Truthy(p.value) ==> p.value.JObj?)
      && (Accepted(p.value) ==>
            var days := GetOr(p.value.fields, "days", JArr([]));
            var warnings := GetOr(p.value.fields, "warnings", JArr([]));
            DayListShape(days) && DaysReadableFor(DayList(days))
            && (!Truthy(warnings) || warnings.JArr? || warnings.JStr?))
  }

  /** All the parts of the report for an accepted itinerary. */
  function ReportParts(days: seq<Json>, warnings: Json, textToFloat: string -> Option<real>,
                       fmt2: real -> string, pyStr: Json -> string): seq<string>
    requires DaysReadableFor(days)
    requires !Truthy(warnings) || warnings.JArr? || warnings.JStr?
  {
    [Title] + Sections(days, pyStr)
    + ClosingParts(Total(days, textToFloat), Currency(days, textToFloat), warnings, fmt2, pyStr)
  }

  /** Title first, footer last: the joined text starts with the title and
      ends with the footer, whatever lies between. */
  lemma FramedText(sections: seq<string>, closing: seq<string>)
    requires closing != [] && closing[|closing| - 1] == Footer
    ensures var text := Concat([Title] + sections + closing);
      StartsWith(text, Title) && |text| >= |Footer| && text[|text| - |Footer|..] == Footer
  {
    ConcatAppend([Title] + sections, closing);
    ConcatAppend([Title], sections);
    assert Concat([Title]) == Title by {
      assert [Title][..0] == [];
    }
    var before := Concat(closing[..|closing| - 1]);
    assert Concat(closing) == before + Footer;
    var text := Title + Concat(sections) + (before + Footer);
    assert text[..|Title|] == Title;
    assert text[|text| - |Footer|..] == Footer;
  }

  /** The report text: every part joined, opening with the title and closing
      with the footer. */
  function Report(days: seq<Json>, warnings: Json, textToFloat: string -> Option<real>,
                  fmt2: real -> string, pyStr: Json -> string): (r: string)
    requires DaysReadableFor(days)
    requires !Truthy(warnings) || warnings.JArr? || warnings.JStr?
    ensures StartsWith(r, Title) && |r| >= |Footer| && r[|r| - |Footer|..] == Footer
  {
    FramedText(Sections(days, pyStr), ClosingParts(Total(days, textToFloat), Currency(days, textToFloat), warnings, fmt2, pyStr));
    Concat(ReportParts(days, warnings, textToFloat, fmt2, pyStr))
  }

  /** What the stage writes under `formatted_itinerary`. */
  function Formatted(state: map<string, Json>, parse: Parser, textToFloat: string -> Option<real>,
                     fmt2: real -> string, pyStr: Json -> string): (r: string)
    requires Readable(state, parse)
    ensures Decode(Get(state, EnrichedKey), parse).Failure? ==> r == InvalidData
    ensures Decode(Get(state, EnrichedKey), parse).Success? && !Accepted(Decode(Get(state, EnrichedKey), parse).value) ==>
      r == NoItinerary
    ensures EnrichedKey !in state ==> r == NoItinerary
    // an accepted itinerary: the report of its days and warnings
    ensures Decode(Get(state, EnrichedKey), parse).Success? && Accepted(Decode(Get(state, EnrichedKey), parse).value) ==>
      var v := Decode(Get(state, EnrichedKey), parse).value;
      var days := GetOr(v.fields, "days", JArr([]));
      DayListShape(days) && r == Report(DayList(days), GetOr(v.fields, "warnings", JArr([])), textToFloat, fmt2, pyStr)
  {
    match Decode(Get(state, EnrichedKey), parse)
    case Failure(_) => InvalidData
    case Success(v) =>
      if !Truthy(v) || !Accepted(v) then NoItinerary
      else
        var days := GetOr(v.fields, "days", JArr([]));
        Report(DayList(days), GetOr(v.fields, "warnings", JArr([])), textToFloat, fmt2, pyStr)
  }

  /** An accepted itinerary whose `days` is `{}` or `""` is rendered as a
      report with no day sections. */
  lemma EmptyDaysReport(state: map<string, Json>, parse: Parser, days: Json, textToFloat: string -> Option<real>,
                        fmt2: real -> string, pyStr: Json -> string)
    requires days == JObj(map[]) || days == JStr("")
    requires EnrichedKey in state
    requires state[EnrichedKey] == JObj(map["status" := JStr("success"), "days" := days])
    ensures Readable(state, parse)
    ensures Formatted(state, parse, textToFloat, fmt2, pyStr) == Report([], JArr([]), textToFloat, fmt2, pyStr)
  {
  }

  /** The folds after one more day extend the folds after the days before it. */
  lemma RenderStep(days: seq<Json>, textToFloat: string -> Option<real>, pyStr: Json -> string, d: nat)
    requires DaysReadableFor(days) && d < |days|
    ensures DayReadable(days[d])
    ensures DaysReadableFor(days[..d]) && DaysReadableFor(days[..d + 1])
    ensures Sections(days[..d + 1], pyStr) == Sections(days[..d], pyStr) + DayParts(days[d], pyStr)
    ensures DayCost(days[d], textToFloat).None? ==>
      Total(days[..d + 1], textToFloat) == Total(days[..d], textToFloat)
      && Currency(days[..d + 1], textToFloat) == Currency(days[..d], textToFloat)
    ensures DayCost(days[d], textToFloat).Some? ==>
      Total(days[..d + 1], textToFloat) == Total(days[..d], textToFloat) + DayCost(days[d], textToFloat).value.amount
      && Currency(days[..d + 1], textToFloat)
         == if Currency(days[..d], textToFloat) == JNull then DayCost(days[d], textToFloat).value.currency
            else Currency(days[..d], textToFloat)
  {
    PrefixReadable(days, d);
    PrefixReadable(days, d + 1);
    assert days[..d + 1][..d] == days[..d];
    assert days[..d + 1][d] == days[d];
  }

  /** One pass of the rendering loop. */
  method RenderDay(days: seq<Json>, textToFloat: string -> Option<real>, pyStr: Json -> string, d: nat,
                   parts: seq<string>, total: real, currency: Json)
    returns (parts': seq<string>, total': real, currency': Json)
    requires DaysReadableFor(days) && d < |days| && DaysReadableFor(days[..d])
    requires parts == Sections(days[..d], pyStr)
    requires total == Total(days[..d], textToFloat) && currency == Currency(days[..d], textToFloat)
    ensures DaysReadableFor(days[..d + 1])
    ensures parts' == Sections(days[..d + 1], pyStr)
    ensures total' == Total(days[..d + 1], textToFloat) && currency' == Currency(days[..d + 1], textToFloat)
  {
    RenderStep(days, textToFloat, pyStr, d);
    total', currency' := total, currency;
    var cost := DayCost(days[d], textToFloat);
    if cost.Some? {
      total' := total' + cost.value.amount;
      if currency' == JNull {
        currency' := cost.value.currency;
      }
    }
    parts' := parts + DayParts(days[d], pyStr);
  }

  /** The rendering loop: the parts of every day section, with the running
      total and currency. */
  method RenderDays(days: seq<Json>, textToFloat: string -> Option<real>, pyStr: Json -> string)
    returns (parts: seq<string>, total: real, currency: Json)
    requires DaysReadableFor(days)
    ensures parts == Sections(days, pyStr)
    ensures total == Total(days, textToFloat) && currency == Currency(days, textToFloat)
  {
    parts, total, currency := [], 0.0, JNull;
    var d := 0;
    PrefixReadable(days, 0);
    while d < |days|
      invariant 0 <= d <= |days|
      invariant DaysReadableFor(days[..d])
      invariant parts == Sections(days[..d], pyStr)
      invariant total == Total(days[..d], textToFloat) && currency == Currency(days[..d], textToFloat)
    {
      parts, total, currency := RenderDay(days, textToFloat, pyStr, d, parts, total, currency);
      d := d + 1;
    }
    assert days[..d] == days;
  }

  /** `FormatterAgent._run_async_impl`: only `formatted_itinerary` changes. */
  method Format(session: Session, parse: Parser, textToFloat: string -> Option<real>,
                fmt2: real -> string, pyStr: Json -> string)
    requires Readable(session.state, parse)
    modifies session
    ensures session.state == old(session.state)[FormattedKey := JStr(Formatted(old(session.state), parse, textToFloat, fmt2, pyStr))]
  {
    var enriched := Decode(session.Lookup(EnrichedKey), parse);
    if enriched.Failure? {
      session.state := session.state[FormattedKey := JStr(InvalidData)];
      return;
    }
    var v := enriched.value;
    if !Truthy(v) || !Accepted(v) {
      session.state := session.state[FormattedKey := JStr(NoItinerary)];
      return;
    }
    var days := DayList(GetOr(v.fields, "days", JArr([])));
    var warnings := GetOr(v.fields, "warnings", JArr([]));
    var sections, total, currency := RenderDays(days, textToFloat, pyStr);
    var parts := [Title] + sections + ClosingParts(total, currency, warnings, fmt2, pyStr);
    session.state := session.state[FormattedKey := JStr(Concat(parts))];
  }
}

=== FILE: json.dfy ===
/** JSON values as the pipeline stores them in the session state, with the
    Python behaviours the stages rely on: truthiness, `dict.get`, and `str()`
    of scalar values. */
module JsonValue {
  import opened Wrappers

  /** A decoded JSON value. `json.loads` produces an `int` for an integer
      literal and a `float` for a decimal one, hence JInt and JReal. */
  datatype Json =
    | JNull
    | JBool(b: bool)
    | JInt(i: int)
    | JReal(r: real)
    | JStr(s: string)
    | JArr(items: seq<Json>)
    | JObj(fields: map<string, Json>)

  /** The JSON parser (`json.loads`): text to a value, or the decode error. */
  type Parser = string -> Result<Json>

  /** Python truthiness (`bool(v)`). */
  predicate Truthy(v: Json) {
    match v
    case JNull => false
    case JBool(b) => b
    case JInt(i) => i != 0
    case JReal(r) => r != 0.0
    case JStr(s) => |s| > 0
    case JArr(xs) => |xs| > 0
    case JObj(m) => |m| > 0
  }

  /** `d.get(k, default)`: the stored value when the key is present (even a
      stored null), the default otherwise. */
  function GetOr(m: map<string, Json>, k: string, default: Json): (r: Json)
    ensures k in m ==> r == m[k]
    ensures k !in m ==> r == default
  {
    if k in m then m[k] else default
  }

  /** `d.get(k)`: like GetOr with `None` as the default. */
  function Get(m: map<string, Json>, k: string): Json {
    GetOr(m, k, JNull)
  }

  /** Decodes a state value the way every stage does: a string is handed to
      the JSON parser, any other value is used as it is. */
  function Decode(v: Json, parse: Parser): (r: Result<Json>)
    ensures !v.JStr? ==> r == Success(v)
  {
    if v.JStr? then parse(v.s) else Success(v)
  }

  /** The Python type name that appears in exception messages. */
  function TypeName(v: Json): string {
    match v
    case JNull => "NoneType"
    case JBool(_) => "bool"
    case JInt(_) => "int"
    case JReal(_) => "float"
    case JStr(_) => "str"
    case JArr(_) => "list"
    case JObj(_) => "dict"
  }

  /** The message of the AttributeError raised by `v.get(...)` on a non-dict. */
  function NoGetMessage(v: Json): string {
    "'" + TypeName(v) + "' object has no attribute 'get'"
  }

  function DigitChar(d: nat): char
    requires d < 10
  {
    "0123456789"[d]
  }

  predicate IsDigit(c: char) {
    '0' <= c <= '9'
  }

  /** Decimal rendering of a natural number, most significant digit first. */
  function NatToString(n: nat): (s: string)
    ensures |s| > 0
    ensures forall k :: 0 <= k < |s| ==> IsDigit(s[k])
    decreases n
  {
    if n < 10 then [DigitChar(n)] else NatToString(n / 10) + [DigitChar(n % 10)]
  }

  /** `str(i)` for a Python int. */
  function IntToString(i: int): string {
    if i < 0 then "-" + NatToString(-i) else NatToString(i)
  }

  lemma {:induction false} NatToStringInjective(a: nat, b: nat)
    requires NatToString(a) == NatToString(b)
    ensures a == b
    decreases a
  {
    if a >= 10 && b >= 10 {
      var sa, sb := NatToString(a), NatToString(b);
      var pa, pb := NatToString(a / 10), NatToString(b / 10);
      assert pa == sa[..|sa| - 1] && pb == sb[..|sb| - 1];
      NatToStringInjective(a / 10, b / 10);
    }
  }

  /** Distinct integers render differently: day numbers give distinct keys. */
  lemma IntToStringInjective(a: int, b: int)
    requires IntToString(a) == IntToString(b)
    ensures a == b
  {
    SignPrefix(a);
    SignPrefix(b);
    if a < 0 {
      var sa, sb := IntToString(a), IntToString(b);
      assert NatToString(-a) == sa[1..] && NatToString(-b) == sb[1..];
      NatToStringInjective(-a, -b);
    } else {
      NatToStringInjective(a, b);
    }
  }

  /** A rendered integer starts with a minus sign exactly when it is negative. */
  lemma SignPrefix(i: int)
    ensures |IntToString(i)| > 0
    ensures IntToString(i)[0] == '-' <==> i < 0
  {
    if i >= 0 {
      assert IsDigit(NatToString(i)[0]);
    }
  }

  /** `str(v)` inside an f-string. Null, booleans, integers and strings are
      rendered exactly as Python does; the rendering of floats, lists and
      dicts is the given function. */
  function Show(v: Json, pyStr: Json -> string): string {
    match v
    case JNull => "None"
    case JBool(b) => if b then "True" else "False"
    case JInt(i) => IntToString(i)
    case JStr(s) => s
    case _ => pyStr(v)
  }
}

=== FILE: location_search.dfy ===
/** The location resolver stage: one city lookup per distinct overnight
    location, each result that came back stored under `coords_<location>`. */
module LocationSearch {
  import opened Wrappers
  import opened JsonValue
  import opened Client
  import opened SessionState
  import ItineraryAmadeus

  /** A day's overnight location, if it has a non-empty one; a truthy
      `overnight` must be a name (the source formats it into a state key and
      hands it to the location tool as a string). */
  predicate NamedOrEmpty(day: Json) {
    day.JObj? && Truthy(Get(day.fields, "overnight")) ==> Get(day.fields, "overnight").JStr?
  }

  function Overnight(day: Json): (r: Option<string>)
    requires NamedOrEmpty(day)
    ensures r.Some? ==> r.value != []
    ensures r.Some? <==> day.JObj? && "overnight" in day.fields && Truthy(day.fields["overnight"])
  {
    if day.JObj? && Truthy(Get(day.fields, "overnight")) then Some(Get(day.fields, "overnight").s) else None
  }

  predicate OvernightsAreNames(days: seq<Json>) {
    forall i :: 0 <= i < |days| ==> NamedOrEmpty(days[i])
  }

  /** The set of distinct non-empty overnight locations of the day list. */
  function Overnights(days: seq<Json>): (r: set<string>)
    requires OvernightsAreNames(days)
    ensures forall l :: l in r ==> l != []
    ensures forall i :: 0 <= i < |days| && Overnight(days[i]).Some? ==> Overnight(days[i]).value in r
    ensures forall l :: l in r ==> exists i :: 0 <= i < |days| && Overnight(days[i]) == Some(l)
  {
    if days == [] then {}
    else
      var last := days[|days| - 1];
      var before := Overnights(days[..|days| - 1]);
      assert forall i :: 0 <= i < |days| - 1 ==> days[..|days| - 1][i] == days[i];
      if Overnight(last).Some? then before + {Overnight(last).value} else before
  }

  predicate Readable(state: map<string, Json>, parse: Parser) {
    DaysReadable(state, parse)
    && (AcceptedDays(state, parse).Some? ==> OvernightsAreNames(AcceptedDays(state, parse).value))
  }

  /** The locations the stage looks up: none when it stops at the gate. */
  function Destinations(state: map<string, Json>, parse: Parser): (r: set<string>)
    requires Readable(state, parse)
    ensures AcceptedDays(state, parse).None? ==> r == {}
    // past the gate: exactly the truthy overnight names of the accepted days
    ensures AcceptedDays(state, parse).Some? ==> r == Overnights(AcceptedDays(state, parse).value)
  {
    match AcceptedDays(state, parse)
    case None => {}
    case Some(days) => Overnights(days)
  }

  function CoordsKey(location: string): string {
    "coords_" + location
  }

  lemma CoordsKeyInjective(a: string, b: string)
    ensures CoordsKey(a) == CoordsKey(b) ==> a == b
  {
    if CoordsKey(a) == CoordsKey(b) {
      assert a == CoordsKey(a)[7..];
      assert b == CoordsKey(b)[7..];
    }
  }

  predicate Distinct(queries: seq<CityQuery>) {
    forall i, j :: 0 <= i < j < |queries| ==> queries[i].keyword != queries[j].keyword
  }

  /** The state after writing the results of the first `n` lookups in order;
      lookup `i` answers `queries[i]`, and one that raised writes nothing. */
  function Record(state: map<string, Json>, queries: seq<CityQuery>, lookup: nat -> Outcome<ClientReply>, n: nat): map<string, Json>
    requires n <= |queries|
  {
    if n == 0 then state
    else
      var before := Record(state, queries, lookup, n - 1);
      match lookup(n - 1)
      case Raised(_) => before
      case Ok(reply) =>
        before[CoordsKey(queries[n - 1].keyword) := ItineraryAmadeus.SearchLocation(queries[n - 1].keyword, reply)]
  }

  /** The keys the first `n` lookups write. */
  function Written(queries: seq<CityQuery>, lookup: nat -> Outcome<ClientReply>, n: nat): (r: set<string>)
    requires n <= |queries|
    ensures forall i :: 0 <= i < n && lookup(i).Ok? ==> CoordsKey(queries[i].keyword) in r
    ensures forall k :: k in r ==> exists i :: 0 <= i < n && lookup(i).Ok? && k == CoordsKey(queries[i].keyword)
  {
    if n == 0 then {}
    else Written(queries, lookup, n - 1) + (if lookup(n - 1).Ok? then {CoordsKey(queries[n - 1].keyword)} else {})
  }

  /** Writing the lookup results adds exactly the `coords_` keys of the
      lookups that returned and leaves every other key as it was. */
  lemma {:induction false} RecordKeys(state: map<string, Json>, queries: seq<CityQuery>, lookup: nat -> Outcome<ClientReply>, n: nat)
    requires n <= |queries|
    ensures Record(state, queries, lookup, n).Keys == state.Keys + Written(queries, lookup, n)
    ensures forall k :: k in state && k !in Written(queries, lookup, n) ==>
      Record(state, queries, lookup, n)[k] == state[k]
  {
    if n > 0 {
      RecordKeys(state, queries, lookup, n - 1);
    }
  }

  /** Each returned lookup's result, a not-found one included, is stored
      under its own key: distinct locations never overwrite each other. */
  lemma {:induction false} RecordStores(state: map<string, Json>, queries: seq<CityQuery>, lookup: nat -> Outcome<ClientReply>, n: nat)
    requires n <= |queries| && Distinct(queries)
    ensures forall i :: 0 <= i < n && lookup(i).Ok? ==>
      CoordsKey(queries[i].keyword) in Record(state, queries, lookup, n)
      && Record(state, queries, lookup, n)[CoordsKey(queries[i].keyword)]
         == ItineraryAmadeus.SearchLocation(queries[i].keyword, lookup(i).value)
  {
    if n > 0 {
      RecordStores(state, queries, lookup, n - 1);
      var last := queries[n - 1].keyword;
      if lookup(n - 1).Ok? {
        forall i | 0 <= i < n - 1
          ensures CoordsKey(queries[i].keyword) != CoordsKey(last)
        {
          CoordsKeyInjective(queries[i].keyword, last);
        }
      }
    }
  }

  /** The set comprehension over the day list. */
  method CollectOvernights(days: seq<Json>) returns (seen: set<string>)
    requires OvernightsAreNames(days)
    ensures seen == Overnights(days)
  {
    seen := {};
    var d := 0;
    while d < |days|
      invariant 0 <= d <= |days|
      invariant seen == Overnights(days[..d])
    {
      assert days[..d + 1][..d] == days[..d];
      var o := Overnight(days[d]);
      if o.Some? {
        seen := seen + {o.value};
      }
      d := d + 1;
    }
    assert days[..d] == days;
  }

  /** `list(...)` of a set: each member once, in some order. */
  method ListOf(seen: set<string>) returns (locations: seq<string>)
    ensures forall l :: l in locations <==> l in seen
    ensures forall i, j :: 0 <= i < j < |locations| ==> locations[i] != locations[j]
  {
    locations := [];
    var rest := seen;
    while rest != {}
      invariant rest <= seen
      invariant forall l :: l in locations <==> l in seen && l !in rest
      invariant forall i, j :: 0 <= i < j < |locations| ==> locations[i] != locations[j]
      decreases |rest|
    {
      var l :| l in rest;
      locations := locations + [l];
      rest := rest - {l};
    }
  }

  /** The set comprehension over the day list, as a list of distinct names. */
  method UniqueOvernights(days: seq<Json>) returns (locations: seq<string>)
    requires OvernightsAreNames(days)
    ensures forall l :: l in locations <==> l in Overnights(days)
    ensures forall i, j :: 0 <= i < j < |locations| ==> locations[i] != locations[j]
  {
    var seen := CollectOvernights(days);
    locations := ListOf(seen);
  }

  /** The lookups issued for the unique locations, in order, with no country hint. */
  function Queries(locations: seq<string>): (r: seq<CityQuery>)
    ensures |r| == |locations|
    ensures forall i :: 0 <= i < |r| ==> r[i] == ItineraryAmadeus.LocationQuery(locations[i], None)
  {
    seq(|locations|, i requires 0 <= i < |locations| => ItineraryAmadeus.LocationQuery(locations[i], None))
  }

  /** The loop over the gathered results: lookup `k` answers `queries[k]`. */
  method StoreResults(session: Session, queries: seq<CityQuery>, lookup: nat -> Outcome<ClientReply>)
    modifies session
    ensures session.state == Record(old(session.state), queries, lookup, |queries|)
  {
    var k := 0;
    while k < |queries|
      invariant 0 <= k <= |queries|
      invariant session.state == Record(old(session.state), queries, lookup, k)
    {
      if lookup(k).Ok? {
        var location := queries[k].keyword;
        session.state := session.state[CoordsKey(location) := ItineraryAmadeus.SearchLocation(location, lookup(k).value)];
      }
      k := k + 1;
    }
  }

  /** `LocationSearchAgent._run_async_impl`: gate on `parsed_days`, look up
      every distinct overnight with no country hint, and store each lookup
      that returned. Lookup `i` answers `queries[i]`. */
  method SearchLocations(session: Session, parse: Parser, lookup: nat -> Outcome<ClientReply>)
    returns (queries: seq<CityQuery>)
    requires Readable(session.state, parse)
    modifies session
    ensures forall l :: l in Destinations(old(session.state), parse) <==> exists q :: q in queries && q.keyword == l
    ensures Distinct(queries)
    ensures forall q :: q in queries ==> q == ItineraryAmadeus.LocationQuery(q.keyword, None)
    ensures session.state == Record(old(session.state), queries, lookup, |queries|)
    // no location to look up: no lookup and no write
    ensures Destinations(old(session.state), parse) == {} ==> queries == [] && session.state == old(session.state)
  {
    queries := [];
    var days := AcceptedDays(session.state, parse);
    if days.None? {
      return;
    }
    var locations := UniqueOvernights(days.value);
    if locations == [] {
      return;
    }
    assert locations[0] in Overnights(days.value);
    queries := Queries(locations);
    assert forall l :: l in locations <==> exists q :: q in queries && q.keyword == l;
    StoreResults(session, queries, lookup);
  }
}

=== FILE: matcher.dfy ===
/** The matcher stage: one match task per numbered day, the oracle picks a
    tour position for each, and the stage assembles `enriched_itinerary`, the
    day-sorted list of chosen tours with warnings. */
module Matcher {
  import opened Wrappers
  import opened JsonValue
  import opened Text
  import opened SessionState
  import ActivitySearch

  const EnrichedKey := "enriched_itinerary"

  // ---------------------------------------------------------------------------
  // Building the tasks

  /** One day to match: its number, overnight location, requested activity and
      the tours found for it. The source stores the overnight under both
      `location` and `overnight`. */
  datatype MatchTask = MatchTask(day: int, overnight: Json, activityRequested: Json, tours: seq<Json>)

  /** The `activities_day_<N>` entry a numbered day reads. */
  function ActivitiesEntry(state: map<string, Json>, day: Json, pyStr: Json -> string): Json
    requires day.JObj?
  {
    Get(state, ActivitySearch.DayKey(Get(day.fields, "day"), pyStr))
  }

  /** The shapes task building and sorting rely on: a truthy day number is an
      int, and a decoded activities dict holds a list under "activities". */
  predicate DayReadable(state: map<string, Json>, day: Json, parse: Parser, pyStr: Json -> string) {
    day.JObj?
    && (Truthy(Get(day.fields, "day")) ==>
          Get(day.fields, "day").JInt?
          && var decoded := Decode(ActivitiesEntry(state, day, pyStr), parse);
             decoded.Success? && decoded.value.JObj? ==>
               GetOr(decoded.value.fields, "activities", JArr([])).JArr?)
  }

  /** The task for one day, or None when it gets none. */
  function TaskFor(state: map<string, Json>, day: Json, parse: Parser, pyStr: Json -> string): (r: Option<MatchTask>)
    requires DayReadable(state, day, parse, pyStr)
    // a falsy day number gets no task
    ensures !Truthy(Get(day.fields, "day")) ==> r == None
    // a missing or empty activities entry still gets a task, with no tours
    ensures Truthy(Get(day.fields, "day")) && !Truthy(ActivitiesEntry(state, day, pyStr)) ==>
      r.Some? && r.value.tours == []
    // an activities string that is not JSON gets no task
    ensures Truthy(ActivitiesEntry(state, day, pyStr)) && Decode(ActivitiesEntry(state, day, pyStr), parse).Failure? ==>
      r == None
    ensures r.Some? ==>
      JInt(r.value.day) == Get(day.fields, "day") && r.value.day != 0
      && r.value.overnight == Get(day.fields, "overnight")
      && r.value.activityRequested == Get(day.fields, "activity_description")
  {
    var number := Get(day.fields, "day");
    if !Truthy(number) then None
    else
      var task := MatchTask(number.i, Get(day.fields, "overnight"), Get(day.fields, "activity_description"), []);
      var entry := ActivitiesEntry(state, day, pyStr);
      if !Truthy(entry) then Some(task)
      else
        match Decode(entry, parse)
        case Failure(_) => None
        case Success(v) =>
          Some(task.(tours := if v.JObj? then GetOr(v.fields, "activities", JArr([])).items else []))
  }

  predicate DaysReadableFor(state: map<string, Json>, days: seq<Json>, parse: Parser, pyStr: Json -> string) {
    forall i {:trigger DayReadable(state, days[i], parse, pyStr)} :: 0 <= i < |days| ==> DayReadable(state, days[i], parse, pyStr)
  }

  /** The tasks, one per day that gets one, in day-list order. */
  function Tasks(state: map<string, Json>, days: seq<Json>, parse: Parser, pyStr: Json -> string): (r: seq<MatchTask>)
    requires DaysReadableFor(state, days, parse, pyStr)
    ensures |r| <= |days|
    ensures forall t :: t in r ==> t.day != 0
  {
    if days == [] then []
    else
      var before := Tasks(state, days[..|days| - 1], parse, pyStr);
      match TaskFor(state, days[|days| - 1], parse, pyStr)
      case None => before
      case Some(task) => before + [task]
  }

  lemma PrefixReadable(state: map<string, Json>, days: seq<Json>, parse: Parser, pyStr: Json -> string, d: nat)
    requires DaysReadableFor(state, days, parse, pyStr) && d <= |days|
    ensures DaysReadableFor(state, days[..d], parse, pyStr)
  {
    forall i | 0 <= i < d
      ensures DayReadable(state, days[..d][i], parse, pyStr)
    {
      assert days[..d][i] == days[i];
    }
  }

  /** The tasks for one more day extend the tasks by that day's task, if any. */
  lemma TasksStep(state: map<string, Json>, days: seq<Json>, parse: Parser, pyStr: Json -> string, d: nat)
    requires DaysReadableFor(state, days, parse, pyStr) && d < |days|
    ensures DayReadable(state, days[d], parse, pyStr)
    ensures DaysReadableFor(state, days[..d], parse, pyStr) && DaysReadableFor(state, days[..d + 1], parse, pyStr)
    ensures TaskFor(state, days[d], parse, pyStr).None? ==>
      Tasks(state, days[..d + 1], parse, pyStr) == Tasks(state, days[..d], parse, pyStr)
    ensures TaskFor(state, days[d], parse, pyStr).Some? ==>
      Tasks(state, days[..d + 1], parse, pyStr)
        == Tasks(state, days[..d], parse, pyStr) + [TaskFor(state, days[d], parse, pyStr).value]
  {
    PrefixReadable(state, days, parse, pyStr, d);
    PrefixReadable(state, days, parse, pyStr, d + 1);
    assert days[..d + 1][..d] == days[..d];
    assert days[..d + 1][d] == days[d];
  }

  /** One pass of the task-building loop: the day's task, if any, is appended. */
  method BuildDay(state: map<string, Json>, days: seq<Json>, parse: Parser, pyStr: Json -> string, d: nat, tasks: seq<MatchTask>)
    returns (next: seq<MatchTask>)
    requires DaysReadableFor(state, days, parse, pyStr) && d < |days|
    requires DaysReadableFor(state, days[..d], parse, pyStr) && tasks == Tasks(state, days[..d], parse, pyStr)
    ensures DaysReadableFor(state, days[..d + 1], parse, pyStr) && next == Tasks(state, days[..d + 1], parse, pyStr)
  {
    TasksStep(state, days, parse, pyStr, d);
    next := tasks;
    var task := TaskFor(state, days[d], parse, pyStr);
    if task.Some? {
      next := next + [task.value];
    }
  }

  /** The task-building loop. */
  method BuildTasks(state: map<string, Json>, days: seq<Json>, parse: Parser, pyStr: Json -> string)
    returns (tasks: seq<MatchTask>)
    requires DaysReadableFor(state, days, parse, pyStr)
    ensures tasks == Tasks(state, days, parse, pyStr)
  {
    tasks := [];
    var d := 0;
    PrefixReadable(state, days, parse, pyStr, 0);
    while d < |days|
      invariant 0 <= d <= |days|
      invariant DaysReadableFor(state, days[..d], parse, pyStr)
      invariant tasks == Tasks(state, days[..d], parse, pyStr)
    {
      tasks := BuildDay(state, days, parse, pyStr, d, tasks);
      d := d + 1;
    }
    assert days[..d] == days;
  }

  // ---------------------------------------------------------------------------
  // Matching one day

  /** The condensed view of one tour that goes into the prompt. */
  datatype Summary = Summary(index: nat, name: Json, description: Json, price: Json, duration: Json)

  /** The exception building one tour's summary raises, if any: the tour is not
      a dict, its truthy description is not text, or its truthy price is not a
      dict. */
  function SummaryError(tour: Json): Option<string> {
    if !tour.JObj? then Some(NoGetMessage(tour))
    else
      var description := GetOr(tour.fields, "description", JStr(""));
      var price := Get(tour.fields, "price");
      if Truthy(description) && !description.JStr? then
        Some("expected string or bytes-like object, got '" + TypeName(description) + "'")
      else if Truthy(price) && !price.JObj? then Some(NoGetMessage(price))
      else None
  }

  /** The summary of the tour at position `i`: tags stripped from the
      description, which is cut to 200 characters. */
  function SummaryOf(i: nat, tour: Json): (r: Summary)
    requires SummaryError(tour).None?
    ensures r.index == i
    ensures r.description.JStr? && Truthy(r.description) ==> |r.description.s| <= 200 && NoTag(r.description.s)
  {
    var m := tour.fields;
    var description := GetOr(m, "description", JStr(""));
    var price := Get(m, "price");
    var shown := if Truthy(description) then
        StripTagsLeavesNoTag(description.s);
        var t := StripTags(description.s);
        JStr(Take(t, 200))
      else description;
    assert shown.JStr? && Truthy(description) ==> NoTag(Take(StripTags(description.s), 200)) by {
      if Truthy(description) {
        NoTagPrefix(StripTags(description.s), 200);
      }
    }
    Summary(i, GetOr(m, "name", JStr("Unnamed tour")), shown,
            if Truthy(price) then GetOr(price.fields, "amount", JStr("N/A")) else JStr("N/A"),
            GetOr(m, "minimumDuration", JStr("N/A")))
  }

  /** A truthy description is cut to exactly the first 200 characters of
      its tag-free text, or kept whole when shorter. */
  lemma SummaryCut(i: nat, tour: Json)
    requires SummaryError(tour).None?
    ensures var d := GetOr(tour.fields, "description", JStr(""));
      var r := SummaryOf(i, tour).description;
      Truthy(d) ==>
        d.JStr? && r.JStr?
        && |r.s| == (if |StripTags(d.s)| <= 200 then |StripTags(d.s)| else 200)
        && r.s == StripTags(d.s)[..|r.s|]
  {
  }

  /** A prefix of tag-free text is tag-free. */
  lemma NoTagPrefix(s: string, n: nat)
    requires NoTag(s)
    ensures NoTag(Take(s, n))
  {
    var t := Take(s, n);
    forall i | 0 <= i < |t| && t[i] == '<'
      ensures (i + 1 < |t| && t[i + 1] == '>') || '>' !in t[i + 1..]
    {
      assert t[i + 1..] == s[i + 1..|t|];
      if '>' in t[i + 1..] {
        var k :| i + 1 <= k < |t| && t[k] == '>';
        assert s[k] == '>';
      }
    }
  }

  /** The first tour whose summary raises, if any: the exception escapes the
      day's match. */
  function SummariesError(tours: seq<Json>): (r: Option<string>)
    ensures r.None? <==> forall i :: 0 <= i < |tours| ==> SummaryError(tours[i]).None?
  {
    if tours == [] then None
    else if SummaryError(tours[0]).Some? then SummaryError(tours[0])
    else
      var rest := SummariesError(tours[1..]);
      assert forall i :: 1 <= i < |tours| ==> tours[1..][i - 1] == tours[i];
      rest
  }

  /** The first failure from position `i` on is this tour's, or else the
      first failure after it. */
  lemma SummariesErrorStep(tours: seq<Json>, i: nat)
    requires i < |tours|
    ensures SummariesError(tours[i..])
         == if SummaryError(tours[i]).Some? then SummaryError(tours[i]) else SummariesError(tours[i + 1..])
  {
    assert tours[i..][0] == tours[i] && tours[i..][1..] == tours[i + 1..];
  }

  /** The summary-building loop: every summary in order, or the exception of
      the first tour that cannot be summarised. */
  method Summaries(tours: seq<Json>) returns (r: Outcome<seq<Summary>>)
    ensures r.Raised? <==> SummariesError(tours).Some?
    ensures r.Raised? ==> r.message == SummariesError(tours).value
    ensures r.Ok? ==> |r.value| == |tours| && forall i :: 0 <= i < |tours| ==> r.value[i] == SummaryOf(i, tours[i])
  {
    var summaries: seq<Summary> := [];
    var i := 0;
    while i < |tours|
      invariant 0 <= i <= |tours| && |summaries| == i
      invariant SummariesError(tours) == SummariesError(tours[i..])
      invariant forall j :: 0 <= j < i ==> SummaryError(tours[j]).None? && summaries[j] == SummaryOf(j, tours[j])
    {
      SummariesErrorStep(tours, i);
      var e := SummaryError(tours[i]);
      if e.Some? {
        return Raised(e.value);
      }
      var summary := SummaryOf(i, tours[i]);
      summaries := summaries + [summary];
      i := i + 1;
    }
    return Ok(summaries);
  }

  /** The index check: a non-int, negative or too large index becomes 0 (an
      int here includes the booleans, which Python treats as 0 and 1). */
  function ClampIndex(index: Json, n: nat): (k: nat)
    requires n > 0
    ensures k < n
    ensures index.JInt? && 0 <= index.i < n ==> k == index.i
    ensures !(index.JInt? || index.JBool?) ==> k == 0
    ensures index.JInt? && (index.i < 0 || index.i >= n) ==> k == 0
    // True is the index 1 and False the index 0
    ensures index.JBool? ==> k == (if index.b && 1 < n then 1 else 0)
  {
    match index
    case JInt(i) => if 0 <= i < n then i else 0
    case JBool(b) => if b && 1 < n then 1 else 0
    case _ => 0
  }

  /** What one day's match returns. */
  datatype DayResult =
    | NoMatch(task: MatchTask, reasoning: Json)
    | Matched(task: MatchTask, tour: Json, confidence: Json, reasoning: Json)

  const FallbackReasoning := "Fallback selection due to parsing error"

  /** `_match_day_async(task)` with the oracle's reply; Raised when the
      summaries raise before the oracle is asked. */
  function MatchDay(task: MatchTask, reply: Outcome<string>, parse: Parser, pyStr: Json -> string): (r: Outcome<DayResult>)
    // a chosen tour is always one of the task's tours, never a new one
    ensures r.Ok? && r.value.Matched? ==> r.value.tour in task.tours && r.value.task == task
    ensures r.Ok? ==> r.value.task == task
    // no tours: no match, and the reply is never consulted
    ensures task.tours == [] ==>
      r == Ok(NoMatch(task, JStr("No tours available in " + Show(task.overnight, pyStr))))
    // only a summary can make the task raise
    ensures r.Raised? <==> task.tours != [] && SummariesError(task.tours).Some?
    // an undecodable reply falls back to the first tour with low confidence
    ensures task.tours != [] && SummariesError(task.tours).None? && reply.Ok? && parse(StripFences(reply.value)).Failure? ==>
      r == Ok(Matched(task, task.tours[0], JStr("low"), JStr(FallbackReasoning)))
    // an oracle call that raised gives no match
    ensures task.tours != [] && SummariesError(task.tours).None? && reply.Raised? ==>
      r == Ok(NoMatch(task, JStr("Error during matching: " + reply.message)))
    // a reply decoding to a dict selects the tour as Choose does
    ensures task.tours != [] && SummariesError(task.tours).None? && reply.Ok?
            && parse(StripFences(reply.value)).Success? && parse(StripFences(reply.value)).value.JObj? ==>
      r == Choose(task, parse(StripFences(reply.value)).value.fields)
    // a reply decoding to anything else fails on `.get` and gives no match
    ensures task.tours != [] && SummariesError(task.tours).None? && reply.Ok?
            && parse(StripFences(reply.value)).Success? && !parse(StripFences(reply.value)).value.JObj? ==>
      r == Ok(NoMatch(task, JStr("Error during matching: " + NoGetMessage(parse(StripFences(reply.value)).value))))
  {
    var tours := task.tours;
    if tours == [] then Ok(NoMatch(task, JStr("No tours available in " + Show(task.overnight, pyStr))))
    else if SummariesError(tours).Some? then Raised(SummariesError(tours).value)
    else
      match reply
      case Raised(message) => Ok(NoMatch(task, JStr("Error during matching: " + message)))
      case Ok(text) =>
        match parse(StripFences(text))
        case Failure(_) => Ok(Matched(task, tours[0], JStr("low"), JStr(FallbackReasoning)))
        case Success(v) =>
          if !v.JObj? then Ok(NoMatch(task, JStr("Error during matching: " + NoGetMessage(v))))
          else Choose(task, v.fields)
  }

  /** The part of `_match_day_async` after the reply decoded to a dict. */
  function Choose(task: MatchTask, selection: map<string, Json>): (r: Outcome<DayResult>)
    requires task.tours != []
    ensures r.Ok? && r.value.task == task
    // a null or missing index: no match, with the oracle's reasoning or a default
    ensures Get(selection, "selected_index") == JNull ==>
      r.value == NoMatch(task, GetOr(selection, "reasoning", JStr("No suitable match")))
    // otherwise the tour at the checked index
    ensures Get(selection, "selected_index") != JNull ==>
      r.value.Matched?
      && r.value.tour == task.tours[ClampIndex(Get(selection, "selected_index"), |task.tours|)]
      && r.value.confidence == GetOr(selection, "confidence", JStr("medium"))
      && r.value.reasoning == GetOr(selection, "reasoning", JStr(""))
  {
    var index := Get(selection, "selected_index");
    if index == JNull then Ok(NoMatch(task, GetOr(selection, "reasoning", JStr("No suitable match"))))
    else
      Ok(Matched(task, task.tours[ClampIndex(index, |task.tours|)],
                 GetOr(selection, "confidence", JStr("medium")), GetOr(selection, "reasoning", JStr(""))))
  }

  /** A day without tours matches the same whatever the oracle would say. */
  lemma NoToursNoOracle(task: MatchTask, a: Outcome<string>, b: Outcome<string>, parse: Parser, pyStr: Json -> string)
    requires task.tours == []
    ensures MatchDay(task, a, parse, pyStr) == MatchDay(task, b, parse, pyStr)
  {
  }

  // ---------------------------------------------------------------------------
  // Aggregation

  /** One entry of the enriched day list. */
  datatype EnrichedDay = EnrichedDay(day: int, overnight: Json, activityRequested: Json,
                                     matchedTour: Json, confidence: Json, reasoning: Json)

  function Entry(result: DayResult): (e: EnrichedDay)
    ensures e.day == result.task.day
    ensures result.NoMatch? ==> e.matchedTour == JNull && e.confidence == JStr("none")
    ensures result.Matched? ==> e.matchedTour == result.tour
  {
    var task := result.task;
    match result
    case NoMatch(_, reasoning) =>
      EnrichedDay(task.day, task.overnight, task.activityRequested, JNull, JStr("none"), reasoning)
    case Matched(_, tour, confidence, reasoning) =>
      EnrichedDay(task.day, task.overnight, task.activityRequested, tour, confidence, reasoning)
  }

  /** The warning a result adds, if any. */
  function Warning(result: Outcome<DayResult>, pyStr: Json -> string): Option<string> {
    match result
    case Raised(message) => Some("Matching failed: " + message)
    case Ok(r) =>
      if r.NoMatch? then
        Some("No tours found for day " + IntToString(r.task.day) + " in " + Show(r.task.overnight, pyStr))
      else None
  }

  /** The entries of the results that did not raise, in result order. */
  function Entries(results: seq<Outcome<DayResult>>): (r: seq<EnrichedDay>)
    ensures |r| <= |results|
  {
    if results == [] then []
    else
      var before := Entries(results[..|results| - 1]);
      match results[|results| - 1]
      case Raised(_) => before
      case Ok(result) => before + [Entry(result)]
  }

  /** The warnings of the results, in result order. */
  function Warnings(results: seq<Outcome<DayResult>>, pyStr: Json -> string): (r: seq<string>)
    ensures |r| <= |results|
  {
    if results == [] then []
    else
      var before := Warnings(results[..|results| - 1], pyStr);
      match Warning(results[|results| - 1], pyStr)
      case None => before
      case Some(w) => before + [w]
  }

  /** A day's entry is dropped exactly when its task raised, and each dropped
      day or unmatched day leaves a warning: entries and warnings together
      cover every result, and only matched days add no warning. */
  lemma {:induction false} EveryResultAccounted(results: seq<Outcome<DayResult>>, pyStr: Json -> string)
    ensures |Entries(results)| + |Warnings(results, pyStr)| == |results| + Unmatched(results)
  {
    if results != [] {
      EveryResultAccounted(results[..|results| - 1], pyStr);
    }
  }

  /** The number of results that are a no-match. */
  function Unmatched(results: seq<Outcome<DayResult>>): nat {
    if results == [] then 0
    else Unmatched(results[..|results| - 1]) + (if results[|results| - 1].Ok? && results[|results| - 1].value.NoMatch? then 1 else 0)
  }

  /** The aggregation loop over the gathered results. */
  method Aggregate(results: seq<Outcome<DayResult>>, pyStr: Json -> string)
    returns (entries: seq<EnrichedDay>, warnings: seq<string>)
    ensures entries == Entries(results) && warnings == Warnings(results, pyStr)
  {
    entries, warnings := [], [];
    var i := 0;
    while i < |results|
      invariant 0 <= i <= |results|
      invariant entries == Entries(results[..i]) && warnings == Warnings(results[..i], pyStr)
    {
      assert results[..i + 1][..i] == results[..i];
      match results[i] {
        case Raised(message) =>
          warnings := warnings + ["Matching failed: " + message];
        case Ok(result) =>
          entries := entries + [Entry(result)];
          if result.NoMatch? {
            warnings := warnings + ["No tours found for day " + IntToString(result.task.day) + " in " + Show(result.task.overnight, pyStr)];
          }
      }
      i := i + 1;
    }
    assert results[..i] == results;
  }

  // ---------------------------------------------------------------------------
  // `sorted(enriched_days, key=lambda x: x['day'])`

  predicate SortedByDay(s: seq<EnrichedDay>) {
    forall i, j :: 0 <= i < j < |s| ==> s[i].day <= s[j].day
  }

  /** The entries for one day number, in order. */
  function OnDay(s: seq<EnrichedDay>, d: int): (r: seq<EnrichedDay>)
    ensures |r| <= |s|
  {
    if s == [] then []
    else OnDay(s[..|s| - 1], d) + (if s[|s| - 1].day == d then [s[|s| - 1]] else [])
  }

  lemma {:induction false} OnDayAppend(a: seq<EnrichedDay>, b: seq<EnrichedDay>, d: int)
    ensures OnDay(a + b, d) == OnDay(a, d) + OnDay(b, d)
    decreases |b|
  {
    if b == [] {
      assert a + b == a;
    } else {
      assert (a + b)[..|a + b| - 1] == a + b[..|b| - 1];
      OnDayAppend(a, b[..|b| - 1], d);
    }
  }

  /** Inserts `x` after every entry whose day is not greater, so that equal
      days keep their order. */
  function Insert(s: seq<EnrichedDay>, x: EnrichedDay): (r: seq<EnrichedDay>)
    ensures multiset(r) == multiset(s) + multiset{x}
    ensures |r| == |s| + 1
  {
    if s == [] || s[|s| - 1].day <= x.day then s + [x]
    else
      assert s == s[..|s| - 1] + [s[|s| - 1]];
      Insert(s[..|s| - 1], x) + [s[|s| - 1]]
  }

  function SortByDay(s: seq<EnrichedDay>): (r: seq<EnrichedDay>)
    ensures multiset(r) == multiset(s)
    ensures |r| == |s|
  {
    if s == [] then []
    else
      assert s == s[..|s| - 1] + [s[|s| - 1]];
      Insert(SortByDay(s[..|s| - 1]), s[|s| - 1])
  }

  lemma {:induction false} InsertSorted(s: seq<EnrichedDay>, x: EnrichedDay)
    requires SortedByDay(s)
    ensures SortedByDay(Insert(s, x))
    ensures forall i :: 0 <= i < |Insert(s, x)| ==> Insert(s, x)[i] in s || Insert(s, x)[i] == x
  {
    if s == [] || s[|s| - 1].day <= x.day {
    } else {
      var init := s[..|s| - 1];
      var last := s[|s| - 1];
      InsertSorted(init, x);
      var t := Insert(init, x);
      assert multiset(t) == multiset(init) + multiset{x};
      forall i | 0 <= i < |t|
        ensures t[i].day <= last.day
      {
        assert t[i] in multiset(t);
        if t[i] in init {
          var k :| 0 <= k < |init| && init[k] == t[i];
        }
      }
    }
  }

  lemma {:induction false} InsertOnDay(s: seq<EnrichedDay>, x: EnrichedDay, d: int)
    ensures OnDay(Insert(s, x), d) == OnDay(s, d) + (if x.day == d then [x] else [])
  {
    if s == [] || s[|s| - 1].day <= x.day {
      OnDayAppend(s, [x], d);
    } else {
      var init := s[..|s| - 1];
      var last := s[|s| - 1];
      InsertOnDay(init, x, d);
      OnDayAppend(Insert(init, x), [last], d);
      assert s == init + [last];
      OnDayAppend(init, [last], d);
    }
  }

  /** The result is ordered by day number. */
  lemma {:induction false} SortSorted(s: seq<EnrichedDay>)
    ensures SortedByDay(SortByDay(s))
  {
    if s != [] {
      SortSorted(s[..|s| - 1]);
      InsertSorted(SortByDay(s[..|s| - 1]), s[|s| - 1]);
    }
  }

  /** The sort is stable: entries with the same day keep their relative order. */
  lemma {:induction false} SortStable(s: seq<EnrichedDay>, d: int)
    ensures OnDay(SortByDay(s), d) == OnDay(s, d)
  {
    if s != [] {
      SortStable(s[..|s| - 1], d);
      InsertOnDay(SortByDay(s[..|s| - 1]), s[|s| - 1], d);
    }
  }

  // ---------------------------------------------------------------------------
  // The stage

  function DayJson(e: EnrichedDay): Json {
    JObj(map[
      "day" := JInt(e.day),
      "location" := e.overnight,
      "activity_requested" := e.activityRequested,
      "matched_tour" := e.matchedTour,
      "confidence" := e.confidence,
      "reasoning" := e.reasoning,
      "overnight" := e.overnight])
  }

  function Failed(message: string): (r: Json)
    ensures r.JObj? && Get(r.fields, "status") == JStr("error") && Get(r.fields, "error") == JStr(message)
  {
    JObj(map["status" := JStr("error"), "error" := JStr(message)])
  }

  function StringsJson(ws: seq<string>): (r: Json)
    ensures r.JArr? && |r.items| == |ws| && forall i :: 0 <= i < |ws| ==> r.items[i] == JStr(ws[i])
  {
    JArr(seq(|ws|, i requires 0 <= i < |ws| => JStr(ws[i])))
  }

  function DaysJson(days: seq<EnrichedDay>): (r: Json)
    ensures r.JArr? && |r.items| == |days| && forall i :: 0 <= i < |days| ==> r.items[i] == DayJson(days[i])
  {
    JArr(seq(|days|, i requires 0 <= i < |days| => DayJson(days[i])))
  }

  /** The results gathered for the tasks: reply `i` answers task `i`. */
  function Results(tasks: seq<MatchTask>, replies: nat -> Outcome<string>, parse: Parser, pyStr: Json -> string)
    : (r: seq<Outcome<DayResult>>)
    ensures |r| == |tasks|
    ensures forall i :: 0 <= i < |tasks| ==> r[i] == MatchDay(tasks[i], replies(i), parse, pyStr)
  {
    seq(|tasks|, i requires 0 <= i < |tasks| => MatchDay(tasks[i], replies(i), parse, pyStr))
  }

  /** The enriched itinerary assembled from the tasks. */
  function Assemble(tasks: seq<MatchTask>, replies: nat -> Outcome<string>, parse: Parser, pyStr: Json -> string): Json {
    var results := Results(tasks, replies, parse, pyStr);
    JObj(map[
      "status" := JStr("success"),
      "days" := DaysJson(SortByDay(Entries(results))),
      "warnings" := StringsJson(Warnings(results, pyStr))])
  }

  /** Every entry is the entry of a result that did not raise. */
  lemma {:induction false} EntriesFromResults(results: seq<Outcome<DayResult>>)
    ensures forall e :: e in Entries(results) ==>
      exists k :: 0 <= k < |results| && results[k].Ok? && e == Entry(results[k].value)
  {
    if results != [] {
      var init := results[..|results| - 1];
      EntriesFromResults(init);
      forall e | e in Entries(results)
        ensures exists k :: 0 <= k < |results| && results[k].Ok? && e == Entry(results[k].value)
      {
        if e in Entries(init) {
          var k :| 0 <= k < |init| && init[k].Ok? && e == Entry(init[k].value);
          assert results[k] == init[k];
        } else {
          assert e == Entry(results[|results| - 1].value);
        }
      }
    }
  }

  /** Once tasks exist the stage reports success, even if no day matched; its
      days are sorted by day number, are exactly the entries of the results
      that did not raise, and every tour in them is one of the tours listed
      for that day. */
  lemma AssembledItinerary(tasks: seq<MatchTask>, replies: nat -> Outcome<string>, parse: Parser, pyStr: Json -> string)
    ensures var r := Assemble(tasks, replies, parse, pyStr);
      r.JObj? && Get(r.fields, "status") == JStr("success")
    ensures var days := SortByDay(Entries(Results(tasks, replies, parse, pyStr)));
      Get(Assemble(tasks, replies, parse, pyStr).fields, "days") == DaysJson(days)
      && SortedByDay(days)
      && multiset(days) == multiset(Entries(Results(tasks, replies, parse, pyStr)))
      && forall e :: e in days ==>
           e.matchedTour == JNull
           || exists k :: 0 <= k < |tasks| && tasks[k].day == e.day && e.matchedTour in tasks[k].tours
  {
    var results := Results(tasks, replies, parse, pyStr);
    var entries := Entries(results);
    var days := SortByDay(entries);
    SortSorted(entries);
    EntriesFromResults(results);
    forall e | e in days
      ensures e.matchedTour == JNull
        || exists k :: 0 <= k < |tasks| && tasks[k].day == e.day && e.matchedTour in tasks[k].tours
    {
      assert e in multiset(days);
      assert e in entries;
      var k :| 0 <= k < |results| && results[k].Ok? && e == Entry(results[k].value);
      assert results[k] == MatchDay(tasks[k], replies(k), parse, pyStr);
    }
  }

  predicate Readable(state: map<string, Json>, parse: Parser, pyStr: Json -> string) {
    DaysReadable(state, parse)
    && (AcceptedDays(state, parse).Some? ==> DaysReadableFor(state, AcceptedDays(state, parse).value, parse, pyStr))
  }

  /** What the stage writes under `enriched_itinerary`. */
  function Enriched(state: map<string, Json>, parse: Parser, pyStr: Json -> string, replies: nat -> Outcome<string>): (r: Json)
    requires Readable(state, parse, pyStr)
    ensures ParsedData(state, parse).Failure? ==> r == Failed("Invalid parsed_days data")
    ensures ParsedData(state, parse).Success? && !Accepted(ParsedData(state, parse).value) ==>
      r == Failed("No parsed itinerary data available")
    ensures AcceptedDays(state, parse) == Some([]) ==> r == Failed("No days in parsed itinerary")
    ensures AcceptedDays(state, parse).Some? && AcceptedDays(state, parse).value != [] ==>
      var tasks := Tasks(state, AcceptedDays(state, parse).value, parse, pyStr);
      r == if tasks == [] then Failed("No valid days to match") else Assemble(tasks, replies, parse, pyStr)
  {
    match ParsedData(state, parse)
    case Failure(_) => Failed("Invalid parsed_days data")
    case Success(v) =>
      if !Truthy(v) || !Accepted(v) then Failed("No parsed itinerary data available")
      else
        var days := AcceptedDays(state, parse).value;
        if days == [] then Failed("No days in parsed itinerary")
        else
          var tasks := Tasks(state, days, parse, pyStr);
          if tasks == [] then Failed("No valid days to match")
          else Assemble(tasks, replies, parse, pyStr)
  }

  /** `MatcherAgent._run_async_impl`: only `enriched_itinerary` changes. */
  method Match(session: Session, parse: Parser, pyStr: Json -> string, replies: nat -> Outcome<string>)
    requires Readable(session.state, parse, pyStr)
    modifies session
    ensures session.state == old(session.state)[EnrichedKey := Enriched(old(session.state), parse, pyStr, replies)]
  {
    var parsed := ParsedData(session.state, parse);
    if parsed.Failure? {
      session.state := session.state[EnrichedKey := Failed("Invalid parsed_days data")];
      return;
    }
    if !Truthy(parsed.value) || !Accepted(parsed.value) {
      session.state := session.state[EnrichedKey := Failed("No parsed itinerary data available")];
      return;
    }
    var days := AcceptedDays(session.state, parse).value;
    if days == [] {
      session.state := session.state[EnrichedKey := Failed("No days in parsed itinerary")];
      return;
    }
    var tasks := BuildTasks(session.state, days, parse, pyStr);
    if tasks == [] {
      session.state := session.state[EnrichedKey := Failed("No valid days to match")];
      return;
    }
    var results := Results(tasks, replies, parse, pyStr);
    var entries, warnings := Aggregate(results, pyStr);
    session.state := session.state[EnrichedKey := JObj(map[
      "status" := JStr("success"),
      "days" := DaysJson(SortByDay(entries)),
      "warnings" := StringsJson(warnings)])];
  }
}

=== FILE: matcher_tools.dfy ===
/** `match_activity`, the older single-call selector tool: the oracle picks
    `matched_index` and the tool returns the tour at that position. */
module MatcherTools {
  import opened Wrappers
  import opened JsonValue
  import opened Text

  /** A tour the summary loop can read: a dict whose `short_description`, if
      present, can be sliced. */
  predicate SummaryReadable(tour: Json) {
    tour.JObj? &&
    ("short_description" in tour.fields ==>
       tour.fields["short_description"].JStr? || tour.fields["short_description"].JArr?)
  }

  /** The condensed view of one tour that goes into the prompt. */
  datatype TourSummary = TourSummary(index: nat, name: Json, shortDescription: Json, price: Json, rating: Json)

  /** `x[:200]` for a string or a list. */
  function Truncate200(v: Json): (r: Json)
    requires v.JStr? || v.JArr?
    ensures v.JStr? ==> r.JStr? && |r.s| <= 200 && |r.s| <= |v.s| && r.s == v.s[..|r.s|]
    ensures v.JArr? ==> r.JArr? && |r.items| <= 200 && |r.items| <= |v.items| && r.items == v.items[..|r.items|]
    // a longer value keeps exactly its first 200 characters or items
    ensures v.JStr? && |v.s| > 200 ==> |r.s| == 200
    ensures v.JArr? && |v.items| > 200 ==> |r.items| == 200
  {
    if v.JStr? then JStr(Take(v.s, 200))
    else if |v.items| <= 200 then v else JArr(v.items[..200])
  }

  /** The summary of the tour at position `i`. */
  function Summary(i: nat, tour: Json): (r: TourSummary)
    requires SummaryReadable(tour)
    ensures r.index == i
    ensures "name" !in tour.fields ==> r.name == JStr("Unnamed tour")
    ensures "short_description" !in tour.fields ==> r.shortDescription == JStr("")
    ensures r.shortDescription.JStr? ==> |r.shortDescription.s| <= 200
    // a text description is cut to its first 200 characters
    ensures var d := GetOr(tour.fields, "short_description", JStr(""));
      d.JStr? ==>
        r.shortDescription.JStr?
        && |r.shortDescription.s| == (if |d.s| <= 200 then |d.s| else 200)
        && r.shortDescription.s == d.s[..|r.shortDescription.s|]
  {
    TourSummary(i, GetOr(tour.fields, "name", JStr("Unnamed tour")),
                Truncate200(GetOr(tour.fields, "short_description", JStr(""))),
                Get(tour.fields, "price"), Get(tour.fields, "rating"))
  }

  /** The summary loop: one entry per tour, in order. */
  method Summaries(tours: seq<Json>) returns (summaries: seq<TourSummary>)
    requires forall i :: 0 <= i < |tours| ==> SummaryReadable(tours[i])
    ensures |summaries| == |tours|
    ensures forall i :: 0 <= i < |tours| ==> summaries[i] == Summary(i, tours[i])
  {
    summaries := [];
    var i := 0;
    while i < |tours|
      invariant 0 <= i <= |tours| && |summaries| == i
      invariant forall j :: 0 <= j < i ==> summaries[j] == Summary(j, tours[j])
    {
      summaries := summaries + [Summary(i, tours[i])];
      i := i + 1;
    }
  }

  /** What the oracle's `matched_index` leads to. */
  datatype Pick = Picked(k: nat) | OutOfRange | Raises(message: string)

  /** `matched_index is None or matched_index >= len(tours)` followed by
      `tours[matched_index]`, with Python's comparison and indexing rules:
      booleans are the integers 0 and 1, a negative index counts from the end,
      and an unsupported comparison or index raises. */
  function PickIndex(index: Json, n: nat): (p: Pick)
    requires n > 0
    ensures p.Picked? ==> p.k < n
    ensures index.JNull? ==> p == OutOfRange
    ensures index.JInt? && 0 <= index.i < n ==> p == Picked(index.i)
    ensures index.JInt? && index.i >= n ==> p == OutOfRange
    ensures index.JInt? && -(n as int) <= index.i < 0 ==> p == Picked(n + index.i)
    ensures index.JInt? && index.i < -(n as int) ==> p.Raises?
  {
    match index
    case JNull => OutOfRange
    case JInt(i) =>
      if i >= n then OutOfRange
      else if i >= 0 then Picked(i)
      else if i >= -(n as int) then Picked(n + i)
      else Raises("list index out of range")
    case JBool(b) =>
      var k := if b then 1 else 0;
      if k >= n then OutOfRange else Picked(k)
    case JReal(x) =>
      if x >= n as real then OutOfRange
      else Raises("list indices must be integers or slices, not float")
    case _ =>
      Raises("'>=' not supported between instances of '" + TypeName(index) + "' and 'int'")
  }

  /** A result without a tour. */
  function Failed(status: string, error: Option<string>, reasoning: Json): (r: Json)
    ensures r.JObj? && Get(r.fields, "status") == JStr(status)
    ensures Get(r.fields, "matched_tour") == JNull && Get(r.fields, "confidence") == JStr("none")
  {
    var m := map[
      "status" := JStr(status),
      "matched_tour" := JNull,
      "confidence" := JStr("none"),
      "reasoning" := reasoning];
    JObj(if error.Some? then m["error" := JStr(error.value)] else m)
  }

  function Crashed(message: string): (r: Json) {
    Failed("error", Some("Error matching activity: " + message), JStr(""))
  }

  /** `match_activity(activity, tours, location)` with the oracle's reply. */
  function MatchActivity(tours: seq<Json>, location: string, reply: Outcome<string>, parse: Parser): (r: Json)
    requires forall i :: 0 <= i < |tours| ==> SummaryReadable(tours[i])
    ensures r.JObj?
    // a success always carries one of the given tours, never a new one
    ensures Get(r.fields, "status") == JStr("success") ==>
      exists k :: 0 <= k < |tours| && Get(r.fields, "matched_tour") == tours[k]
    // every other result carries no tour and confidence "none"
    ensures Get(r.fields, "status") != JStr("success") ==>
      Get(r.fields, "matched_tour") == JNull && Get(r.fields, "confidence") == JStr("none")
    // no tours: an error, whatever the oracle would have said
    ensures tours == [] ==>
      Get(r.fields, "status") == JStr("error")
      && Get(r.fields, "error") == JStr("No tours available in " + location)
      && Get(r.fields, "reasoning") == JStr("No tours found within search radius of " + location)
    // an oracle call that raised is caught as a matching error
    ensures tours != [] && reply.Raised? ==> r == Crashed(reply.message)
    // an undecodable reply is a parse error
    ensures tours != [] && reply.Ok? && parse(StripFences(reply.value)).Failure? ==>
      Get(r.fields, "status") == JStr("error")
      && Get(r.fields, "error") == JStr("Failed to parse matcher response as JSON: " + parse(StripFences(reply.value)).error)
    // a reply decoding to something other than a dict fails on `.get`
    ensures tours != [] && reply.Ok? && parse(StripFences(reply.value)).Success? && !parse(StripFences(reply.value)).value.JObj? ==>
      r == Crashed(NoGetMessage(parse(StripFences(reply.value)).value))
    // a reply decoding to a dict is read as Select reads it
    ensures tours != [] && reply.Ok? && parse(StripFences(reply.value)).Success? && parse(StripFences(reply.value)).value.JObj? ==>
      r == Select(tours, parse(StripFences(reply.value)).value.fields)
  {
    if tours == [] then
      Failed("error", Some("No tours available in " + location),
             JStr("No tours found within search radius of " + location))
    else
      match reply
      case Raised(message) => Crashed(message)
      case Ok(text) =>
        match parse(StripFences(text))
        case Failure(e) =>
          Failed("error", Some("Failed to parse matcher response as JSON: " + e), JStr(""))
        case Success(v) =>
          if !v.JObj? then Crashed(NoGetMessage(v))
          else Select(tours, v.fields)
  }

  /** The part of `match_activity` after the reply was decoded to a dict. */
  function Select(tours: seq<Json>, answer: map<string, Json>): (r: Json)
    requires tours != []
    ensures r.JObj?
    ensures Get(r.fields, "status") == JStr("success") ==>
      exists k :: 0 <= k < |tours| && Get(r.fields, "matched_tour") == tours[k]
    ensures Get(r.fields, "status") != JStr("success") ==>
      Get(r.fields, "matched_tour") == JNull && Get(r.fields, "confidence") == JStr("none")
    // the oracle declined: no tour, its reasoning or a default
    ensures Get(answer, "status") == JStr("no_match") ==>
      r == Failed("no_match", None, GetOr(answer, "reasoning", JStr("No suitable tours found")))
    // a missing index or one past the end is rejected
    ensures Get(answer, "status") != JStr("no_match") && PickIndex(Get(answer, "matched_index"), |tours|).OutOfRange? ==>
      r == Failed("error", Some("Invalid tour index returned"), JStr(""))
    // a usable index returns exactly that tour
    ensures Get(answer, "status") != JStr("no_match") && PickIndex(Get(answer, "matched_index"), |tours|).Picked? ==>
      Get(r.fields, "status") == JStr("success")
      && Get(r.fields, "matched_tour") == tours[PickIndex(Get(answer, "matched_index"), |tours|).k]
      && Get(r.fields, "confidence") == GetOr(answer, "confidence", JStr("medium"))
      && Get(r.fields, "reasoning") == GetOr(answer, "reasoning", JStr(""))
    // an index Python cannot use raises, and the tool reports the exception
    ensures Get(answer, "status") != JStr("no_match") && PickIndex(Get(answer, "matched_index"), |tours|).Raises? ==>
      r == Crashed(PickIndex(Get(answer, "matched_index"), |tours|).message)
      && Get(r.fields, "status") == JStr("error")
  {
    if Get(answer, "status") == JStr("no_match") then
      Failed("no_match", None, GetOr(answer, "reasoning", JStr("No suitable tours found")))
    else
      match PickIndex(Get(answer, "matched_index"), |tours|)
      case OutOfRange => Failed("error", Some("Invalid tour index returned"), JStr(""))
      case Raises(message) => Crashed(message)
      case Picked(k) =>
        JObj(map[
          "status" := JStr("success"),
          "matched_tour" := tours[k],
          "confidence" := GetOr(answer, "confidence", JStr("medium")),
          "reasoning" := GetOr(answer, "reasoning", JStr(""))])
  }

  /** Unlike the matcher stage, an undecodable reply gives no tour at all. */
  lemma NoFallbackOnBadJson(tours: seq<Json>, location: string, text: string, parse: Parser)
    requires forall i :: 0 <= i < |tours| ==> SummaryReadable(tours[i])
    requires tours != [] && parse(StripFences(text)).Failure?
    ensures Get(MatchActivity(tours, location, Ok(text), parse).fields, "status") == JStr("error")
    ensures Get(MatchActivity(tours, location, Ok(text), parse).fields, "matched_tour") == JNull
  {
  }
}

=== FILE: parser_tools.dfy ===
/** `parse_itinerary`: the post-processing of the parser oracle's reply. The
    oracle call itself is an input: its reply text, or the exception it
    raised. */
module ParserTools {
  import opened Wrappers
  import opened JsonValue
  import opened Text

  /** The error dict every failure path returns. */
  function ErrorResult(message: string): (r: Json)
    ensures r.JObj? && Get(r.fields, "status") == JStr("error")
    ensures Get(r.fields, "days") == JArr([]) && Get(r.fields, "error") == JStr(message)
  {
    JObj(map["status" := JStr("error"), "error" := JStr(message), "days" := JArr([])])
  }

  const MissingDays: string := "Parser did not return 'days' array"

  /** `key in v` for a decoded value, or the TypeError text when `in` is not
      defined on v (numbers, booleans, None). */
  function Membership(v: Json, key: string): Result<bool> {
    match v
    case JObj(m) => Success(key in m)
    case JArr(xs) => Success(JStr(key) in xs)
    case JStr(s) => Success(Contains(s, key))
    case _ => Failure("argument of type '" + TypeName(v) + "' is not iterable")
  }

  /** The message of `v["status"] = "success"` when v is a list or a string. */
  function AssignError(v: Json): string {
    if v.JArr? then "list indices must be integers or slices, not str"
    else "'" + TypeName(v) + "' object does not support item assignment"
  }

  /** What `parse_itinerary` does with the decoded reply. */
  function Finish(v: Json): (r: Json)
    // an object result always carries a status and a day list
    ensures r.JObj? ==> "status" in r.fields && "days" in r.fields
    // a decoded object: missing days is an error, otherwise the object with
    // its status defaulted to "success" and nothing else changed
    ensures v.JObj? && "days" !in v.fields ==> r == ErrorResult(MissingDays)
    ensures v.JObj? && "days" in v.fields ==>
      r.JObj? && r.fields.Keys == v.fields.Keys + {"status"}
      && (forall k :: k in v.fields && k != "status" ==> r.fields[k] == v.fields[k])
      && r.fields["status"] == GetOr(v.fields, "status", JStr("success"))
    // numbers, booleans and null make the `in` test raise, which is caught
    ensures v.JNull? || v.JBool? || v.JInt? || v.JReal? ==>
      r == ErrorResult("Error parsing itinerary: " + ("argument of type '" + TypeName(v) + "' is not iterable"))
  {
    match Membership(v, "status")
    case Failure(e) => ErrorResult("Error parsing itinerary: " + e)
    case Success(hasStatus) =>
      if !hasStatus && !v.JObj? then ErrorResult("Error parsing itinerary: " + AssignError(v))
      else
        var v' := if v.JObj? && !hasStatus then JObj(v.fields["status" := JStr("success")]) else v;
        match Membership(v', "days")
        case Failure(e) => ErrorResult("Error parsing itinerary: " + e)
        case Success(hasDays) => if hasDays then v' else ErrorResult(MissingDays)
  }

  /** `parse_itinerary(text)` after the oracle call: never raises. */
  function ParseItinerary(reply: Outcome<string>, parse: Parser): (r: Json)
    ensures r.JObj? ==> "status" in r.fields && "days" in r.fields
    // an oracle failure is turned into an error result
    ensures reply.Raised? ==> r == ErrorResult("Error parsing itinerary: " + reply.message)
    // undecodable text is turned into an error result
    ensures reply.Ok? ==>
      var decoded := parse(StripFences(reply.value));
      (decoded.Failure? ==> r == ErrorResult("Failed to parse response as JSON: " + decoded.error))
      && (decoded.Success? ==> r == Finish(decoded.value))
  {
    match reply
    case Raised(message) => ErrorResult("Error parsing itinerary: " + message)
    case Ok(text) =>
      match parse(StripFences(text))
      case Failure(e) => ErrorResult("Failed to parse response as JSON: " + e)
      case Success(v) => Finish(v)
  }
}

=== FILE: pipeline.dfy ===
/** How the stages compose. The root agent runs parser, location search,
    activity search, matcher and formatter in that order and never stops
    early; every stage reads `parsed_days` or the previous stage's key. These
    lemmas show that no stage overwrites what a later stage gates on. */
module Pipeline {
  import opened Wrappers
  import opened JsonValue
  import opened Client
  import opened SessionState
  import opened Text
  import LocationSearch
  import ActivitySearch

  /** The location stage writes only `coords_` keys. */
  lemma LocationWritesOnlyCoords(state: map<string, Json>, queries: seq<CityQuery>, lookup: nat -> Outcome<ClientReply>)
    ensures forall k :: k in state && !StartsWith(k, "coords_") ==>
      k in LocationSearch.Record(state, queries, lookup, |queries|)
      && LocationSearch.Record(state, queries, lookup, |queries|)[k] == state[k]
    ensures forall k :: k !in state && !StartsWith(k, "coords_") ==>
      k !in LocationSearch.Record(state, queries, lookup, |queries|)
  {
    LocationSearch.RecordKeys(state, queries, lookup, |queries|);
    forall k | k in LocationSearch.Written(queries, lookup, |queries|)
      ensures StartsWith(k, "coords_")
    {
      var i :| 0 <= i < |queries| && lookup(i).Ok? && k == LocationSearch.CoordsKey(queries[i].keyword);
      assert k[..7] == "coords_";
    }
  }

  /** The activity stage writes only `activities_day_` keys. */
  lemma ActivityWritesOnlyDays(state: map<string, Json>, tasks: seq<ActivitySearch.SearchTask>,
                               search: nat -> Outcome<ClientReply>, pyStr: Json -> string)
    ensures forall k :: k in state && !StartsWith(k, "activities_day_") ==>
      k in ActivitySearch.Record(state, tasks, search, pyStr, |tasks|)
      && ActivitySearch.Record(state, tasks, search, pyStr, |tasks|)[k] == state[k]
    ensures forall k :: k !in state && !StartsWith(k, "activities_day_") ==>
      k !in ActivitySearch.Record(state, tasks, search, pyStr, |tasks|)
  {
    ActivitySearch.RecordKeys(state, tasks, search, pyStr, |tasks|);
    forall k | k in ActivitySearch.Written(tasks, search, pyStr, |tasks|)
      ensures StartsWith(k, "activities_day_")
    {
      var i :| 0 <= i < |tasks| && search(i).Ok? && k == ActivitySearch.DayKey(tasks[i].day, pyStr);
      assert k[..15] == "activities_day_";
    }
  }

  /** Location search and activity search leave `parsed_days` alone, so the
      activity search and the matcher pass or fail the same gate as the
      location search did. */
  lemma GateSurvivesSearches(state: map<string, Json>, queries: seq<CityQuery>, lookup: nat -> Outcome<ClientReply>,
                             tasks: seq<ActivitySearch.SearchTask>, search: nat -> Outcome<ClientReply>,
                             pyStr: Json -> string, parse: Parser)
    ensures var afterLocations := LocationSearch.Record(state, queries, lookup, |queries|);
      var afterActivities := ActivitySearch.Record(afterLocations, tasks, search, pyStr, |tasks|);
      ParsedData(afterActivities, parse) == ParsedData(state, parse)
  {
    var afterLocations := LocationSearch.Record(state, queries, lookup, |queries|);
    LocationWritesOnlyCoords(state, queries, lookup);
    ActivityWritesOnlyDays(afterLocations, tasks, search, pyStr);
    assert !StartsWith(ParsedDaysKey, "coords_") by { assert ParsedDaysKey[0] != "coords_"[0]; }
    assert !StartsWith(ParsedDaysKey, "activities_day_") by { assert ParsedDaysKey[0] != "activities_day_"[0]; }
  }
}

=== FILE: session.dfy ===
/** The session state the pipeline stages communicate through, and the
    `parsed_days` gate the location, activity and matcher stages share. */
module SessionState {
  import opened Wrappers
  import opened JsonValue

  /** The string-keyed session state; each stage reads some keys and writes others. */
  class Session {
    var state: map<string, Json>

    constructor (initial: map<string, Json>)
      ensures state == initial
    {
      state := initial;
    }

    /** `session.state.get(key)`. */
    function Lookup(key: string): (v: Json)
      reads this
      ensures key !in state ==> v == JNull
      ensures key in state ==> v == state[key]
    {
      Get(state, key)
    }
  }

  const ParsedDaysKey := "parsed_days"

  /** `parsed_data` after the optional JSON decoding of a string value. */
  function ParsedData(state: map<string, Json>, parse: Parser): Result<Json> {
    Decode(Get(state, ParsedDaysKey), parse)
  }

  /** The check `not parsed_data or parsed_data.get('status') != 'success'`
      passes: a dict whose status is the string "success". */
  predicate Accepted(v: Json) {
    v.JObj? && Get(v.fields, "status") == JStr("success")
  }

  /** The shapes `for day in days` walks without raising that the stages
      accept: a list, or an empty dict or string (falsy, so no days). */
  predicate DayListShape(days: Json) {
    days.JArr? || days == JObj(map[]) || days == JStr("")
  }

  /** The days `for day in days` visits. */
  function DayList(days: Json): (r: seq<Json>)
    requires DayListShape(days)
    ensures days.JArr? ==> r == days.items
    ensures !Truthy(days) ==> r == []
  {
    if days.JArr? then days.items else []
  }

  /** The shapes the stages rely on without checking (the source would raise
      on anything else): a truthy decoded `parsed_data` is a dict, and when it
      is accepted its `days` entry, if any, is a list of dicts or an empty
      dict or string. */
  predicate DaysReadable(state: map<string, Json>, parse: Parser) {
    var p := ParsedData(state, parse);
    p.Success? ==>
      (Truthy(p.value) ==> p.value.JObj?)
      && (Accepted(p.value) ==>
            var days := GetOr(p.value.fields, "days", JArr([]));
            DayListShape(days) && forall i :: 0 <= i < |DayList(days)| ==> DayList(days)[i].JObj?)
  }

  /** The day list a stage goes on with, or None when it stops at the gate. */
  function AcceptedDays(state: map<string, Json>, parse: Parser): (r: Option<seq<Json>>)
    requires DaysReadable(state, parse)
    ensures r.Some? <==> ParsedData(state, parse).Success? && Accepted(ParsedData(state, parse).value)
    ensures r.Some? ==> forall i :: 0 <= i < |r.value| ==> r.value[i].JObj?
    ensures ParsedDaysKey !in state ==> r == None
  {
    match ParsedData(state, parse)
    case Failure(_) => None
    case Success(v) =>
      if Truthy(v) && Accepted(v) then Some(DayList(GetOr(v.fields, "days", JArr([])))) else None
  }

  /** An accepted `days` that is `{}` or `""` passes the gate with no days. */
  lemma EmptyDaysAccepted(state: map<string, Json>, parse: Parser, days: Json)
    requires days == JObj(map[]) || days == JStr("")
    requires ParsedDaysKey in state
    requires state[ParsedDaysKey] == JObj(map["status" := JStr("success"), "days" := days])
    ensures DaysReadable(state, parse) && AcceptedDays(state, parse) == Some([])
  {
  }
}

=== FILE: text.dfy ===
/** String operations the stages apply to oracle replies and tour
    descriptions: `str.strip`, `str.replace(old, "")`, the code-fence
    clean-up every oracle caller performs, `re.sub(r'<[^>]+>', '', s)` and
    slicing to a maximum length. */
module Text {

  /** The ASCII characters `str.strip()` and `\s` treat as whitespace: space,
      tab, line feed, carriage return, vertical tab, form feed and the four
      separators 0x1C-0x1F. */
  predicate IsSpace(c: char) {
    c == ' ' || c == '\t' || c == '\n' || c == '\r' || c == '\U{0B}' || c == '\U{0C}'
    || '\U{1C}' <= c <= '\U{1F}'
  }

  predicate StartsWith(s: string, p: string) {
    |p| <= |s| && s[..|p|] == p
  }

  /** `p in s` for strings: p occurs as a contiguous substring of s. */
  predicate Contains(s: string, p: string)
    decreases |s|
  {
    StartsWith(s, p) || (s != [] && Contains(s[1..], p))
  }

  /** The first position at or after `i` that does not hold whitespace, or |s|. */
  function Lead(s: string, i: nat): (j: nat)
    requires i <= |s|
    ensures i <= j <= |s|
    ensures j < |s| ==> !IsSpace(s[j])
    decreases |s| - i
  {
    if i < |s| && IsSpace(s[i]) then Lead(s, i + 1) else i
  }

  /** The end left after dropping the whitespace in front of `j`, never
      going below `lo`. */
  function Trail(s: string, lo: nat, j: nat): (e: nat)
    requires lo <= j <= |s|
    ensures lo <= e <= j
    ensures e > lo ==> !IsSpace(s[e - 1])
    decreases j
  {
    if j > lo && IsSpace(s[j - 1]) then Trail(s, lo, j - 1) else j
  }

  /** `s.strip()`: the slice without surrounding whitespace. */
  function Strip(s: string): (r: string)
    ensures r == [] || (!IsSpace(r[0]) && !IsSpace(r[|r| - 1]))
    ensures Lead(s, 0) + |r| <= |s| && r == s[Lead(s, 0)..Lead(s, 0) + |r|]
  {
    var a := Lead(s, 0);
    s[a..Trail(s, a, |s|)]
  }

  /** Only whitespace is skipped by Lead. */
  lemma {:induction false} LeadSkipsSpaces(s: string, i: nat)
    requires i <= |s|
    ensures forall k :: i <= k < Lead(s, i) ==> IsSpace(s[k])
    decreases |s| - i
  {
    if i < |s| && IsSpace(s[i]) {
      LeadSkipsSpaces(s, i + 1);
    }
  }

  /** Only whitespace is dropped by Trail. */
  lemma {:induction false} TrailDropsSpaces(s: string, lo: nat, j: nat)
    requires lo <= j <= |s|
    ensures forall k :: Trail(s, lo, j) <= k < j ==> IsSpace(s[k])
    decreases j
  {
    if j > lo && IsSpace(s[j - 1]) {
      TrailDropsSpaces(s, lo, j - 1);
    }
  }

  /** Strip removes whitespace and nothing else, from both ends. */
  lemma StripDropsOnlySpaces(s: string)
    ensures forall k :: 0 <= k < Lead(s, 0) ==> IsSpace(s[k])
    ensures forall k :: Lead(s, 0) + |Strip(s)| <= k < |s| ==> IsSpace(s[k])
  {
    LeadSkipsSpaces(s, 0);
    TrailDropsSpaces(s, Lead(s, 0), |s|);
  }

  /** `s.replace(p, "")`: every non-overlapping occurrence of p, scanning
      left to right, is deleted. */
  function RemoveAll(s: string, p: string): string
    requires p != []
    decreases |s|
  {
    if s == [] then []
    else if StartsWith(s, p) then RemoveAll(s[|p|..], p)
    else [s[0]] + RemoveAll(s[1..], p)
  }

  /** a is obtained from b by deleting characters. */
  predicate Subsequence(a: string, b: string)
    decreases |b|
  {
    a == [] || (b != [] && ((a[0] == b[0] && Subsequence(a[1..], b[1..])) || Subsequence(a, b[1..])))
  }

  lemma {:induction false} SubsequenceOfSuffix(a: string, b: string, k: nat)
    requires k <= |b| && Subsequence(a, b[k..])
    ensures Subsequence(a, b)
    decreases k
  {
    if k > 0 {
      assert b[k - 1..][1..] == b[k..];
      SubsequenceOfSuffix(a, b, k - 1);
    }
  }

  /** `replace(p, "")` only deletes characters, and changes nothing when p
      does not occur. */
  lemma {:induction false} RemoveAllDeletes(s: string, p: string)
    requires p != []
    ensures Subsequence(RemoveAll(s, p), s)
    ensures !Contains(s, p) ==> RemoveAll(s, p) == s
    decreases |s|
  {
    if s == [] {
    } else if StartsWith(s, p) {
      RemoveAllDeletes(s[|p|..], p);
      SubsequenceOfSuffix(RemoveAll(s, p), s, |p|);
    } else {
      RemoveAllDeletes(s[1..], p);
      var r := RemoveAll(s, p);
      assert r[0] == s[0] && r[1..] == RemoveAll(s[1..], p);
      if !Contains(s, p) {
        assert r == [s[0]] + s[1..];
      }
    }
  }

  const Fence: string := "```"

  /** No three consecutive backticks anywhere in s. */
  predicate NoFence(s: string) {
    forall i :: 0 <= i < |s| - 2 ==> !FenceAt(s, i)
  }

  predicate FenceAt(s: string, i: nat)
    requires i + 3 <= |s|
  {
    s[i] == '`' && s[i + 1] == '`' && s[i + 2] == '`'
  }

  /** Deleting every fence leaves none behind: backtick runs shrink to fewer
      than three and stay separated by the characters that were kept. */
  lemma {:induction false} RemoveFencesLeavesNone(s: string)
    ensures NoFence(RemoveAll(s, Fence))
    ensures |RemoveAll(s, Fence)| > 0 && RemoveAll(s, Fence)[0] == '`' ==> |s| > 0 && s[0] == '`'
    ensures |RemoveAll(s, Fence)| > 1 && RemoveAll(s, Fence)[0] == '`' && RemoveAll(s, Fence)[1] == '`'
            ==> |s| > 1 && s[0] == '`' && s[1] == '`'
    decreases |s|
  {
    if s == [] {
    } else if StartsWith(s, Fence) {
      RemoveFencesLeavesNone(s[3..]);
    } else {
      var rest := RemoveAll(s[1..], Fence);
      RemoveFencesLeavesNone(s[1..]);
      var r := RemoveAll(s, Fence);
      assert r == [s[0]] + rest;
      forall i | 0 <= i < |r| - 2
        ensures !FenceAt(r, i)
      {
        if i > 0 {
          assert !FenceAt(rest, i - 1);
          assert r[i] == rest[i - 1] && r[i + 1] == rest[i] && r[i + 2] == rest[i + 1];
        }
      }
    }
  }

  /** The clean-up of a reply that opens with a code fence: a reply opening
      with "```json" loses every "```json" and then every "```", any other
      loses every "```"; the rest is stripped again. */
  function Unfence(t: string): string {
    if StartsWith(t, "```json") then Strip(RemoveAll(RemoveAll(t, "```json"), Fence))
    else Strip(RemoveAll(t, Fence))
  }

  lemma UnfenceClean(t: string)
    ensures NoFence(Unfence(t))
  {
    if StartsWith(t, "```json") {
      var u := RemoveAll(t, "```json");
      RemoveFencesLeavesNone(u);
      StripKeepsNoFence(RemoveAll(u, Fence));
    } else {
      RemoveFencesLeavesNone(t);
      StripKeepsNoFence(RemoveAll(t, Fence));
    }
  }

  /** The clean-up applied to every oracle reply: strip whitespace; when the
      reply opens with a code fence, remove the fences and strip again. */
  function StripFences(reply: string): (r: string)
    ensures !StartsWith(Strip(reply), Fence) ==> r == Strip(reply)
    ensures StartsWith(Strip(reply), Fence) ==> NoFence(r)
  {
    var t := Strip(reply);
    if StartsWith(t, Fence) then
      UnfenceClean(t);
      Unfence(t)
    else t
  }

  lemma StripKeepsNoFence(s: string)
    requires NoFence(s)
    ensures NoFence(Strip(s))
  {
    var i := Lead(s, 0);
    SliceKeepsNoFence(s, i, i + |Strip(s)|);
  }

  lemma SliceKeepsNoFence(s: string, a: nat, b: nat)
    requires a <= b <= |s| && NoFence(s)
    ensures NoFence(s[a..b])
  {
    var r := s[a..b];
    forall k | 0 <= k < |r| - 2
      ensures !FenceAt(r, k)
    {
      assert !FenceAt(s, a + k);
    }
  }

  /** Position of the first '>' at or after `from`, or |s| when there is none. */
  function IndexOfClose(s: string, from: nat): (k: nat)
    requires from <= |s|
    ensures from <= k <= |s|
    ensures k < |s| ==> s[k] == '>'
    ensures forall j :: from <= j < k ==> s[j] != '>'
    decreases |s| - from
  {
    if from == |s| then |s| else if s[from] == '>' then from else IndexOfClose(s, from + 1)
  }

  /** Length of the `<[^>]+>` match at the start of s, or 0 when none. */
  function TagLength(s: string): (n: nat)
    ensures n == 0 || (2 < n <= |s| && s[0] == '<' && s[n - 1] == '>')
  {
    if s == [] || s[0] != '<' then 0
    else
      var k := IndexOfClose(s, 1);
      if 2 <= k < |s| then k + 1 else 0
  }

  /** `re.sub(r'<[^>]+>', '', s)`. */
  function StripTags(s: string): string
    decreases |s|
  {
    if s == [] then []
    else if TagLength(s) > 0 then StripTags(s[TagLength(s)..])
    else [s[0]] + StripTags(s[1..])
  }

  /** No `<[^>]+>` match in r: every '<' is followed directly by '>' or by no
      '>' at all. */
  predicate NoTag(r: string) {
    forall i :: 0 <= i < |r| && r[i] == '<' ==> (i + 1 < |r| && r[i + 1] == '>') || '>' !in r[i + 1..]
  }

  lemma {:induction false} StripTagsKeeps(s: string)
    ensures forall c :: c in StripTags(s) ==> c in s
    ensures s != [] && s[0] != '<' ==> StripTags(s) != [] && StripTags(s)[0] == s[0]
    decreases |s|
  {
    if s == [] {
    } else if TagLength(s) > 0 {
      StripTagsKeeps(s[TagLength(s)..]);
      forall c | c in StripTags(s) ensures c in s {
        assert c in s[TagLength(s)..];
      }
    } else {
      StripTagsKeeps(s[1..]);
      forall c | c in StripTags(s) ensures c in s {
        if c != s[0] {
          assert c in StripTags(s[1..]);
          assert c in s[1..];
        }
      }
    }
  }

  /** After tag removal no tag is left. */
  lemma {:induction false} StripTagsLeavesNoTag(s: string)
    ensures NoTag(StripTags(s))
    decreases |s|
  {
    if s == [] {
    } else if TagLength(s) > 0 {
      StripTagsLeavesNoTag(s[TagLength(s)..]);
    } else {
      var rest := StripTags(s[1..]);
      var r := StripTags(s);
      StripTagsLeavesNoTag(s[1..]);
      StripTagsKeeps(s[1..]);
      assert r == [s[0]] + rest;
      forall i | 0 <= i < |r| && r[i] == '<'
        ensures (i + 1 < |r| && r[i + 1] == '>') || '>' !in r[i + 1..]
      {
        if i > 0 {
          assert r[i + 1..] == rest[i..];
          assert rest[i - 1] == '<';
          if i < |rest| && rest[i] == '>' {
            assert r[i + 1] == '>';
          }
        } else {
          var k := IndexOfClose(s, 1);
          assert r[1..] == rest;
          if k < |s| {
            assert k == 1;
            assert s[1..][0] == '>';
          } else {
            assert '>' !in s[1..];
          }
        }
      }
    }
  }

  /** `s[:n]`. */
  function Take(s: string, n: nat): (r: string)
    ensures |r| <= n && |r| <= |s|
    ensures r == s[..|r|]
    ensures |s| <= n ==> r == s
    ensures |s| > n ==> |r| == n
  {
    if |s| <= n then s else s[..n]
  }

  /** `s.upper()` on ASCII letters. */
  function Upper(s: string): (r: string)
    ensures |r| == |s|
    ensures forall k :: 0 <= k < |r| ==> !('a' <= r[k] <= 'z')
  {
    seq(|s|, k requires 0 <= k < |s| =>
      if 'a' <= s[k] <= 'z' then (s[k] as int - 32) as char else s[k])
  }

  /** Lower-cases one ASCII letter (the case folding of `re.IGNORECASE`). */
  function LowerChar(c: char): char {
    if 'A' <= c <= 'Z' then (c as int + 32) as char else c
  }
}

=== FILE: wrappers.dfy ===
/** Small failure-carrying datatypes shared by every module. */
module Wrappers {

  /** Python's optional value: `None` or a present value. */
  datatype Option<+T> = None | Some(value: T)

  /** The result of an operation that can fail with a message. */
  datatype Result<+T> = Success(value: T) | Failure(error: string)

  /** One settled item of an `asyncio.gather(..., return_exceptions=True)`:
      the item either returned a value or raised an exception with a message. */
  datatype Outcome<+T> = Ok(value: T) | Raised(message: string)
}
